=== FILE: README.md ===
# Adaptive profile-pulsing fan controller, in Dafny

This project models the thermal control loop of a laptop fan controller. The
controller cannot drive the fans directly. Instead it pulses the firmware
platform profile between `performance` and `balanced`, once per polling tick.

Three layers are modelled, each as pure functions over immutable data:

- **Thermal analyzer** (`Analyzer`, with `Regression` for the least-squares
  sums). It keeps a bounded per-zone history of (timestamp, temperature)
  samples and the trend computed from it. It also computes the per-zone and
  global severity (0/1/2), the fan-speed check, the weighted global trend and
  the distance-to-trigger hotness.
- **Pulse controller** (`Controller`, with `Pulse` for the cadence planner).
  `Tick(cfg, st, temps, fans, now)` returns the next state and the profile
  writes issued on the way, in order. A tick runs these steps:
  1. it clears an expired lock;
  2. it records the snapshot;
  3. it runs the debounced emergency latch;
  4. under automatic control only, it plans a cadence (performance hold `on`,
     balanced hold `off`) and drives the boost/normal state machine.

  Lock and unlock requests are separate operations on the same state.
- **Legacy controller** (`Legacy`). The older single-file controller. It has
  a fixed zone table and a fixed cadence table. Its emergency clamp has no
  debounce. Its flag is never cleared, so only the first excursion forces
  performance, and the state machine resumes on the first tick below 95 °C.
  Otherwise it runs the same state machine.

Supporting modules:

- `Config`: the zone catalog, the typed settings record and its defaults.
- `Snapshot`: the per-tick temperature and fan maps.
- `Profiles`: the two profiles and the write intent.
- `Numeric`: Python's `int()`, `min`, `max` and division on reals.
- `Wrappers`: `Option`.

A profile write is a `Write(profile, forced)` value in the outcome. The
believed profile is updated whatever happens to the write, as in the source.
Wall-clock time is the parameter `now`, one value per tick or per request.

Some behaviours of the code are easy to miss; the model keeps them as
written:

- **A lock request during an emergency.** The controller's docstring
  (src/controller.py:22-26) lists the lock and the emergency as separate
  overrides. In the code a lock request force-writes its profile even while
  the emergency is active (src/controller.py:247), so the emergency can go on
  in the balanced profile (`Controller.LockDuringEmergency`).
- **No re-assertion of a lock.** A tick under a lock only skips automatic
  control (src/controller.py:74-77); it never writes the locked profile. So
  when an emergency clears under a lock, the tick writes nothing and the
  profile stays as it was, whatever the locked profile
  (`Controller.EmergencyClearsUnderLock`).
- **Zero readings.** `update_history` tests the reading's truthiness
  (src/analyzer.py:36), so a reading of exactly 0.0 is not recorded
  (`Analyzer.ZeroReadingSkipped`).
- **Lock expiry.** The expiry test requires `lock_until` to be truthy
  (src/controller.py:65), so an absolute expiry of exactly 0.0 never releases
  (`Controller.Expired`, and the side condition of
  `Controller.LockExpiresAfterDuration`).

## Model

| member | source | states |
|---|---|---|
| Config.Level | src/analyzer.py:86-90 | the level is 2 iff the reading is at or above the trigger, 1 iff it lies in [release, trigger), and 0 iff it is below both |
| Config.LevelMonotone | autofan.py:284-290 | a hotter reading never gets a lower zone severity |
| Config.Names | src/analyzer.py:27-30 | a name is in the set iff some zone of the catalog carries it; these are the history keys |
| Config.Find | src/analyzer.py:69-71 | the `next(...)` lookup: None iff no zone has the name, otherwise the first zone of the catalog with that name |
| Config.FindDistinct | src/analyzer.py:82 | in a catalog without duplicate names, looking up the i-th zone's name finds the i-th zone |
| Config.Defaults | src/config.py:112-159 | the fallback settings: boost 5 s, critical 95, debounce 3, window 30, log 10 s, sensitivity 0.3, cpu weight 1.0, ambient weight 0.4 |
| Numeric.Trunc | src/controller.py:134-143 | `int()` truncates toward zero: r <= x < r + 1 for x >= 0, and r - 1 < x <= r for x <= 0 |
| Numeric.TruncMonotone | src/controller.py:134-135 | truncation never reverses the order of two values |
| Numeric.Div | src/analyzer.py:136 | the quotient with a positive divisor is non-negative for a non-negative dividend, below 1 when the dividend is smaller, and at least 1 otherwise |
| Numeric.Clamp | src/analyzer.py:78 | the result lies in [-1, 1], equals x inside the interval, and is the nearest bound outside it |
| Regression.SteadySums | src/analyzer.py:57-61 | over a steady temperature v, sum_y = v * k and sum_xy = v * sum_x for every prefix |
| Regression.SteadyNumerator | src/analyzer.py:64 | a steady temperature makes `n*sum_xy - sum_x*sum_y` zero, whatever the timestamps |
| Regression.SteadySlope | src/analyzer.py:47-66 | a steady temperature has slope 0 |
| Regression.AtOriginSums | src/analyzer.py:52-61 | when every timestamp equals the origin, sum_x and sum_x2 are 0 |
| Regression.SameTimeDenominator | src/analyzer.py:64 | samples sharing one timestamp make `n*sum_x2 - sum_x**2` zero, the ZeroDivisionError case |
| Regression.SameTimeSlope | src/analyzer.py:63-66 | samples sharing one timestamp have slope 0 |
| Regression.PairSums | src/analyzer.py:52-64 | for two samples the numerator is x1 * (y1 - y0) and the denominator is x1 * x1 |
| Regression.PairDenominator | src/analyzer.py:63-66 | two samples at distinct times never divide by zero |
| Regression.PairSlope | src/analyzer.py:51-64 | two samples at distinct times give the two-point slope (y1 - y0) / (t1 - t0) |
| Analyzer.Push | src/analyzer.py:28-37 | the bounded deque append: the newest min(len + 1, window) entries of h + [s], so the oldest entry is evicted first |
| Analyzer.AppendChronological | src/analyzer.py:37 | appending a sample no older than every sample in the window keeps timestamps non-decreasing |
| Analyzer.SuffixChronological | src/analyzer.py:28 | eviction keeps timestamps non-decreasing |
| Analyzer.PushChronological | src/analyzer.py:32-37 | a bounded append of a sample no older than the window keeps it chronological |
| Analyzer.UpdateHistory | src/analyzer.py:32-37 | no history is created or dropped, and no history grows beyond the window |
| Analyzer.UpdateHistoryKeeps | src/analyzer.py:35-37 | a history is unchanged unless its zone is configured and has a truthy reading |
| Analyzer.UpdateHistoryAppends | src/analyzer.py:35-37 | in a catalog without duplicates, a zone with a truthy reading gets exactly one bounded append of (now, temp) |
| Analyzer.PushNoneNewer | src/analyzer.py:34-37 | appending a sample taken at `now` to a window with nothing newer than `now` leaves nothing newer than `now` |
| Analyzer.UpdateHistoryChronological | src/analyzer.py:32-37 | with nothing stored newer than `now`, recording the snapshot at `now` keeps every history chronological and nothing newer than `now` |
| Analyzer.ZeroReadingSkipped | src/analyzer.py:36 | a reading of exactly 0.0 is not recorded |
| Analyzer.Trend | src/analyzer.py:39-78 | built on `Regression.Slope`, the least-squares slope of src/analyzer.py:51-66: the trend lies in [-1, 1] and is 0 for fewer than two samples, a zero slope (which covers a zero denominator), an unknown zone and a non-positive band |
| Analyzer.TrendSteady | src/analyzer.py:47-78 | a steady window has trend 0 |
| Analyzer.TrendSameTime | src/analyzer.py:63-66 | a window of one timestamp has trend 0 |
| Analyzer.TrendPair | src/analyzer.py:51-78 | two samples at distinct times give the clamped two-point slope divided by the band |
| Analyzer.ZoneSeverity | src/analyzer.py:80-90 | the severity lies in 0..2, is 0 for an unknown name, and is the level of the first zone with that name otherwise |
| Analyzer.ZoneSeverityDistinct | src/analyzer.py:80-90 | in a catalog without duplicates, the i-th zone's severity is its own level |
| Analyzer.MaxSeverity | src/analyzer.py:105-110 | the running maximum of the zone severities, starting from 0: it bounds each of the first k and is 0 or one of them |
| Analyzer.GlobalSeverity | src/analyzer.py:103-111 | the global severity lies in 0..2, bounds every zone's severity with absent zones read as 0, and is 0 or attained |
| Analyzer.GlobalSeverityHot | src/analyzer.py:103-111 | in a catalog without duplicate names, the global severity is 2 iff some zone reads at or above its trigger (with duplicates the lookup by name can pick another zone) |
| Analyzer.AnyFanLow | src/analyzer.py:97-99 | the loop finds a low fan among the first k zones iff one exists |
| Analyzer.FansTooLow | src/analyzer.py:92-101 | true iff some configured zone present in the fan map is below its minimum; false for an empty map |
| Analyzer.AbsentFanNeverLow | src/analyzer.py:98 | zones missing from the fan map are never flagged |
| Analyzer.Weighted | src/analyzer.py:119-120 | a weight in [0, 1] times a trend in [-1, 1] stays in [-1, 1] |
| Analyzer.MaxWeighted | src/analyzer.py:115-121 | None iff no zone so far has a reading; otherwise the maximum over the zones with a reading, attained by one of them |
| Analyzer.MaxWeightedTrend | src/analyzer.py:113-121 | 0.0 when no configured zone has a reading; otherwise the maximum weighted trend over the zones with a reading (0.5 default weight), attained by one of them, negative if all are |
| Analyzer.MaxWeightedTrendBounded | src/analyzer.py:113-121 | with weights in [0, 1], the global trend lies in [-1, 1] |
| Analyzer.ZoneHotness | src/analyzer.py:128-136 | hotness lies in [0, 1]; it is 0 below release or for a non-positive span, 1 at or above the trigger, and (temp - release) / span in between |
| Analyzer.HotnessSeverity | src/analyzer.py:128-136 | a hot zone has severity at least 1, and full hotness is exactly severity 2 |
| Analyzer.MaxHotness | src/analyzer.py:125-137 | the running maximum lies in [0, 1], bounds every zone seen so far, and is 0 or attained |
| Analyzer.GlobalHotness | src/analyzer.py:123-138 | the global hotness lies in [0, 1], bounds every zone's hotness with absent zones read as 0, and is 0 or attained |
| Analyzer.GlobalHotnessCool | src/analyzer.py:123-138 | with every zone below its release, the global hotness is 0 |
| Pulse.HotAdjust | src/controller.py:133-135 | both holds are at least 1; for hotness in [0, 1] the pulse grows by at most 5 and the rest shrinks by at most 7 |
| Pulse.HotAdjustMonotone | src/controller.py:133-135 | a hotter system never gets a longer rest or a shorter pulse |
| Pulse.TrendAdjust | src/controller.py:137-143 | a zero trend changes nothing; heating floors the rest at 1 and caps the pulse at 30; cooling floors the pulse at 1 and caps the rest at 60; for unit inputs heating never lengthens the rest and cooling never lengthens the pulse |
| Pulse.CadenceFor | src/controller.py:127-145 | for a sensitivity in [0, 1] and a trend in [-1, 1] both holds are at least 1; heating caps the pulse at 30 and cooling caps the rest at 60 |
| Pulse.HeatingDirection | src/controller.py:138-140 | a heating trend never lengthens the rest or shortens the (capped) pulse the hotness step chose |
| Pulse.CoolingDirection | src/controller.py:141-143 | a cooling trend never lengthens the pulse or shortens the (capped) rest the hotness step chose |
| Pulse.HeatingShortensRest | src/controller.py:138-139 | a heating trend that scales at least one second off a rest of 2 s or more shortens it |
| Pulse.HeatingLengthensPulse | src/controller.py:138-140 | a heating trend that scales at least one second onto a pulse below the 30 s cap lengthens it |
| Pulse.CoolingLengthensRest | src/controller.py:141-142 | a cooling trend that scales at least one second onto a rest below the 60 s cap lengthens it |
| Pulse.CoolingShortensPulse | src/controller.py:141-143 | a cooling trend that scales at least one second off a pulse of 2 s or more shortens it |
| Pulse.FullHotnessRest | src/controller.py:134 | a base rest of 30 at full hotness becomes 23 |
| Pulse.WarmFullHotness | src/controller.py:127-145 | the default warm cadence at full hotness with a flat trend is a 6 s pulse and a 23 s rest |
| Pulse.WarmFullHeating | src/controller.py:127-145 | the default warm cadence at full hotness and full heating (sensitivity 0.3) is scaled from (6, 23) to a 7 s pulse and a 16 s rest |
| Pulse.CoolingCapsIndefiniteRest | src/controller.py:141-143 | under the defaults, a cool system with any cooling trend has its 9999 s rest capped to 60 and a 1 s pulse |
| Profiles.Parse | src/controller.py:228 | only "performance" and "balanced" are accepted, each as its own profile |
| Profiles.ParseName | src/controller.py:228 | every profile's name parses back to the profile |
| Controller.Init | src/controller.py:29-44 | start-up: boosting in performance, no emergency, zero count, unlocked, one history per configured zone, every one empty, and no status line or severity recorded yet (`last_log` and the last global severity 0) |
| Controller.SetProfile | src/controller.py:212-218 | writes and switches iff forced or different; a write records the profile and the switch time; nothing else changes |
| Controller.SetProfileIdempotent | src/controller.py:214 | an unforced switch to the profile just set writes nothing and changes nothing |
| Controller.Debounce | src/controller.py:105-125 | the count rises on a critical tick and resets otherwise; emergency holds iff the count reached the debounce, or it held before and the count is not 0 |
| Controller.DebounceSynced | src/controller.py:116-125 | from a synced latch, emergency implies a count of at least the debounce after every tick |
| Controller.Streak | src/controller.py:111-114 | the trailing run of critical ticks is never longer than the run itself |
| Controller.RunLatchStreak | src/controller.py:105-125 | over any run of ticks, the count is the current streak of critical ticks and the latch stays synced |
| Controller.EmergencyAfterStreak | src/controller.py:116-121 | from rest, emergency holds iff the last n ticks were all critical |
| Controller.ThreeCriticalTicks | src/controller.py:105-121 | with debounce 3, three critical ticks engage emergency on the third and not before |
| Controller.InterruptedTicks | src/controller.py:111-116 | with debounce 3, critical, normal, critical never engages emergency |
| Controller.CriticalReadings | src/controller.py:106-109 | a reading of 91 is critical at 90, a reading of 89 is not |
| Controller.HandleEmergency | src/controller.py:94-125 | the latch moves as `Debounce` says; entering an emergency force-writes performance once; staying in or leaving it writes nothing |
| Controller.StateTransition | src/controller.py:147-165 | the boost ends in balanced once the boost time has passed; performance yields to balanced iff the pulse has elapsed; balanced yields to performance iff the rest has elapsed or a fan is low; at most one unforced write |
| Controller.RequestedProfile | src/controller.py:222-230 | a request yields a profile iff it is present and names one of the two profiles, and then it is the profile it names |
| Controller.HandleLock | src/controller.py:220-247 | an absent or invalid request changes nothing; a valid one records the named profile with expiry now + duration (none for a missing or zero duration) and force-writes it, whatever the emergency state; nothing but the lock, the profile and the switch time changes |
| Controller.HandleUnlock | src/controller.py:249-255 | clears the lock and changes nothing else |
| Controller.ExpireLock | src/controller.py:64-66 | an expired lock is cleared; otherwise the state is unchanged |
| Controller.LockExpiresAfterDuration | src/controller.py:65 | a lock with a non-zero duration expires iff its duration has elapsed |
| Controller.IndefiniteLockNeverExpires | src/controller.py:235-238 | a lock without a duration, or with a zero one, never expires |
| Controller.LogStatus | src/controller.py:170-173 | a log line is due iff the interval has passed since the last one; only the last-log time changes |
| Controller.LogRateLimited | src/controller.py:170-173 | after a line at `now`, no line is due before `now + interval` |
| Controller.Prelude | src/controller.py:61-72 | an expired lock is released, the histories become `UpdateHistory` of the snapshot at `now`, and the latch follows the emergency rules; entering an emergency forces one performance write and sets the switch time to `now`, otherwise profile and switch time are untouched |
| Controller.Tick | src/controller.py:50-92 | a tick never creates or drops a history and keeps every configured zone covered |
| Controller.TickHistory | src/controller.py:68-69 | the histories after a tick are the histories before it with the snapshot recorded at `now` |
| Controller.TickHistoryInvariant | src/controller.py:68-69 | with a clock that does not run backwards, a tick keeps every history chronological and within the window |
| Controller.TickLatch | src/controller.py:72 | the tick's latch is the debounced latch of its snapshot |
| Controller.TickLog | src/controller.py:74-92 | on either branch, the time of the last status line after a tick is the one the rate limit gives for `now` |
| Controller.TickAtMostOneWrite | src/controller.py:50-92 | a tick writes the profile at most once |
| Controller.TickShortCircuit | src/controller.py:74-77 | under an emergency or a lock, the phase and the recorded severity stay, the profile and switch time are those left by the prelude, and the tick's writes are exactly the prelude's: none, or the forced performance write of entering the emergency |
| Controller.TickAutomatic | src/controller.py:79-89 | under automatic control the tick records the global severity and ends in the phase, believed profile and switch time the state machine chose with the planned cadence, making exactly its writes |
| Controller.TickNeverReboosts | src/controller.py:154-165 | the boost phase is never re-entered |
| Controller.TickEmergencyPerformance | src/controller.py:116-121 | emergency implies performance, and a tick keeps it so |
| Controller.TickLock | src/controller.py:64-77 | a tick never takes a lock; it only clears an expired one |
| Controller.LockDuringEmergency | src/controller.py:247 | a lock to balanced during an emergency force-writes balanced and leaves the emergency set |
| Controller.EmergencyClearsUnderLock | src/controller.py:74-77 | when an emergency clears under a live lock, the tick writes nothing and the profile stays |
| Legacy.Hold | autofan.py:51-55 | every hold of the fixed table pulses at least 0 s and rests at least 8 s |
| Legacy.HoldMonotone | autofan.py:51-55 | a higher severity never rests longer and never pulses shorter |
| Legacy.ZonesDistinct | autofan.py:74-111 | the four zone names of the table are distinct |
| Legacy.Init | autofan.py:219-223 | start-up: boosting, believed in performance, no emergency |
| Legacy.SwitchTo | autofan.py:269-273 | writes and switches iff the profile differs; otherwise nothing changes |
| Legacy.ForceProfile | autofan.py:275-278 | always writes, records the profile and the switch time, and changes nothing else |
| Legacy.SwitchToIdempotent | autofan.py:269-273 | switching again to the profile just switched to writes nothing |
| Legacy.AnyBelowMin | autofan.py:295-297 | the loop finds a zone below its minimum among the first k iff one exists |
| Legacy.FanTooLow | autofan.py:293-298 | a missing zone reads as its own minimum, so the check agrees with the analyzer's fan check on the zone table |
| Legacy.MaxLevel | autofan.py:242 | the running maximum bounds every zone level so far and is attained by one of them |
| Legacy.GlobalLevel | autofan.py:242 | the global severity lies in 0..2, bounds every zone level with absent zones read as 0, and is attained |
| Legacy.GlobalLevelAgrees | autofan.py:242 | the legacy global severity equals the analyzer's global severity on the zone table |
| Legacy.Transition | autofan.py:246-259 | the boost ends in balanced after 12 s; performance yields to balanced iff the pulse has elapsed; balanced yields to performance iff the rest has elapsed or a fan is low; a write resets the switch time, otherwise it is kept |
| Legacy.Tick | autofan.py:228-259 | the emergency flag is never cleared, and a tick writes at most once |
| Legacy.CriticalTick | autofan.py:233-239 | a critical snapshot skips the state machine; only the first one forces performance and sets the switch time to `now` |
| Legacy.NormalTick | autofan.py:241-259 | any other snapshot runs the state machine with the table's holds for the global severity, even after an emergency |
| Legacy.SecondExcursionStaysBalanced | autofan.py:234-239 | once the flag is set, a later overheat in balanced does not force performance again |

## Left out

- Sensor acquisition (hwmon scanning and label matching) is not modelled. The
  per-zone temperature and fan maps are inputs.
- The sysfs profile write and its swallowed failures are not modelled. A write
  is a `Write` intent in the outcome.
- The event bus and the configuration singleton are not modelled. Lock and
  unlock are direct operations (`HandleLock`, `HandleUnlock`).
- YAML loading is not modelled. `Config.Defaults` carries the fallback values.
- The command-line entry points, the sleep loop and the exit-time fallback
  writes are not modelled.
- Log line formatting is not modelled; only the rate limit is
  (`Controller.LogStatus`). The legacy `int(now) % 10` log trigger is left out
  because it only decides whether a line is printed.
- `time.time()` is sampled separately by `tick`, `update_history` and
  `_set_profile` in the source. The model uses one `now` for the whole tick,
  and one for a lock request.
- IEEE-754 floating point is not modelled: temperatures, trends and hotness
  are `real`. As a result, a ZeroDivisionError occurs exactly when the
  denominator is 0.
- Three lock fields (flag, profile, expiry) are one `Lock` value. The source
  always sets and clears them together, so no reachable state is lost.
- Analyzer.Trend: a zone name without a history raises KeyError in the
  source. The model requires the name to have a history instead. Every
  configured zone has one (`Controller.Init`, `Controller.Tick`).
- Analyzer.Trend: the general case states only the range and the zero cases.
  The slope itself is characterised for steady, single-timestamp and
  two-sample windows, not for windows in general.
- Analyzer.UpdateHistoryAppends: the "exactly one append" property holds only
  for a catalog without duplicate names. With duplicates, the source appends
  once per occurrence.
- Legacy.Hold: the contract gives only bounds on the table entries and their
  order, not each entry.
- Legacy.Tick: the contract states only the emergency persistence and the
  one-write bound. The two branches are characterised by
  `Legacy.CriticalTick` and `Legacy.NormalTick`.
- Controller.Tick: the contract states only history coverage. The other
  properties of a tick are the lemmas named `Tick…` and
  `EmergencyClearsUnderLock`; `TickHistory` carries the history contents.

=== FILE: analyzer.dfy ===
/**
 * The thermal analyzer: per-zone temperature histories with their trend,
 * severity levels, the fan check and the hotness factor, all as pure
 * functions of the zone catalog, the histories and one snapshot.
 */
module Analyzer {
  import opened Wrappers
  import opened Numeric
  import opened Config
  import opened Snapshot
  import opened Regression

  /** One zone's window of (timestamp, temperature) samples, oldest first. */
  type History = seq<Sample>

  /** Zone name to its history. */
  type Histories = map<string, History>

  // ---------------------------------------------------------------------
  // History
  // ---------------------------------------------------------------------

  /**
   * `deque(maxlen=window).append(s)`: the newest `window` entries of h + [s],
   * so the oldest entries are the ones evicted.
   */
  function Push(h: History, s: Sample, window: nat): (r: History)
    ensures |r| == MinInt(|h| + 1, window)
    ensures r == (h + [s])[|h| + 1 - |r|..]
  {
    var full := h + [s];
    if |full| <= window then full else full[|full| - window..]
  }

  /** Timestamps never decrease along the window. */
  predicate Chronological(h: History)
  {
    forall i, j :: 0 <= i < j < |h| ==> h[i].0 <= h[j].0
  }

  /** Appending a sample no older than the newest keeps the order. */
  lemma AppendChronological(h: History, s: Sample)
    requires Chronological(h)
    requires forall i :: 0 <= i < |h| ==> h[i].0 <= s.0
    ensures Chronological(h + [s])
  {
    var full := h + [s];
    forall i, j | 0 <= i < j < |full|
      ensures full[i].0 <= full[j].0
    {
      assert full[i] == h[i];
      if j < |h| {
        assert full[j] == h[j];
      }
    }
  }

  /** Every suffix of a chronological window is chronological. */
  lemma SuffixChronological(h: History, d: nat)
    requires Chronological(h) && d <= |h|
    ensures Chronological(h[d..])
  {
    var r := h[d..];
    forall i, j | 0 <= i < j < |r|
      ensures r[i].0 <= r[j].0
    {
      assert r[i] == h[d + i] && r[j] == h[d + j];
    }
  }

  /** A sample no older than the window's newest keeps the window chronological. */
  lemma PushChronological(h: History, s: Sample, window: nat)
    requires Chronological(h)
    requires forall i :: 0 <= i < |h| ==> h[i].0 <= s.0
    ensures Chronological(Push(h, s, window))
  {
    AppendChronological(h, s);
    SuffixChronological(h + [s], |h| + 1 - |Push(h, s, window)|);
  }

  /** Every configured zone has a history: the analyzer builds one per zone. */
  predicate Covers(zones: seq<Zone>, hist: Histories)
  {
    forall i :: 0 <= i < |zones| ==> zones[i].name in hist
  }

  /** Every history holds at most `window` samples. */
  predicate Bounded(hist: Histories, window: nat)
  {
    forall name :: name in hist ==> |hist[name]| <= window
  }

  /** Covering the catalog survives dropping its head and growing the map. */
  lemma CoversTail(zones: seq<Zone>, hist: Histories, next: Histories)
    requires |zones| > 0 && Covers(zones, hist) && hist.Keys <= next.Keys
    ensures Covers(zones[1..], next)
  {
    forall i | 0 <= i < |zones[1..]|
      ensures zones[1..][i].name in next
    {
      assert zones[1..][i] == zones[i + 1];
    }
  }

  /** A name of the tail is a name of the catalog. */
  lemma NamedTail(zones: seq<Zone>, name: string)
    requires |zones| > 0 && Named(zones[1..], name)
    ensures Named(zones, name)
  {
    var i :| 0 <= i < |zones[1..]| && zones[1..][i].name == name;
    assert zones[i + 1].name == name;
  }

  /**
   * `update_history`: for each zone of the catalog, in order, with a truthy
   * reading, append `(now, temp)` to that zone's history.
   */
  function UpdateHistory(zones: seq<Zone>, hist: Histories, temps: Temps, now: real, window: nat): (r: Histories)
    requires Covers(zones, hist)
    ensures r.Keys == hist.Keys
    ensures Bounded(hist, window) ==> Bounded(r, window)
    decreases |zones|
  {
    if |zones| == 0 then hist
    else
      var name := zones[0].name;
      var next := if HasReading(temps, name) then hist[name := Push(hist[name], (now, temps[name]), window)] else hist;
      CoversTail(zones, hist, next);
      UpdateHistory(zones[1..], next, temps, now, window)
  }

  /** A history is untouched unless its zone is configured and has a truthy reading. */
  lemma {:induction false} UpdateHistoryKeeps(zones: seq<Zone>, hist: Histories, temps: Temps, now: real, window: nat, name: string)
    requires Covers(zones, hist) && name in hist
    requires !(Named(zones, name) && HasReading(temps, name))
    ensures UpdateHistory(zones, hist, temps, now, window)[name] == hist[name]
    decreases |zones|
  {
    if |zones| > 0 {
      var first := zones[0].name;
      var next := if HasReading(temps, first) then hist[first := Push(hist[first], (now, temps[first]), window)] else hist;
      CoversTail(zones, hist, next);
      assert next[name] == hist[name] by {
        if first == name {
          assert Named(zones, name) by { assert zones[0].name == name; }
        }
      }
      if Named(zones[1..], name) {
        NamedTail(zones, name);
      }
      UpdateHistoryKeeps(zones[1..], next, temps, now, window, name);
    }
  }

  /** A configured zone, named once, with a truthy reading gets exactly one new sample. */
  lemma {:induction false} UpdateHistoryAppends(zones: seq<Zone>, hist: Histories, temps: Temps, now: real, window: nat, k: int)
    requires Covers(zones, hist) && DistinctNames(zones)
    requires 0 <= k < |zones| && HasReading(temps, zones[k].name)
    ensures UpdateHistory(zones, hist, temps, now, window)[zones[k].name]
         == Push(hist[zones[k].name], (now, temps[zones[k].name]), window)
    decreases |zones|
  {
    var first := zones[0].name;
    var next := if HasReading(temps, first) then hist[first := Push(hist[first], (now, temps[first]), window)] else hist;
    CoversTail(zones, hist, next);
    if k == 0 {
      assert !Named(zones[1..], first) by {
        forall i | 0 <= i < |zones[1..]|
          ensures zones[1..][i].name != first
        {
          assert zones[1..][i] == zones[i + 1];
        }
      }
      UpdateHistoryKeeps(zones[1..], next, temps, now, window, first);
    } else {
      assert DistinctNames(zones[1..]) by {
        forall i, j | 0 <= i < j < |zones[1..]|
          ensures zones[1..][i].name != zones[1..][j].name
        {
          assert zones[i + 1].name != zones[j + 1].name;
        }
      }
      assert zones[1..][k - 1] == zones[k];
      assert zones[k].name != first;
      UpdateHistoryAppends(zones[1..], next, temps, now, window, k - 1);
    }
  }

  /** A reading of exactly 0.0 is falsy and is not recorded. */
  lemma ZeroReadingSkipped(zones: seq<Zone>, hist: Histories, temps: Temps, now: real, window: nat, name: string)
    requires Covers(zones, hist) && name in hist
    requires name in temps && temps[name] == 0.0
    ensures UpdateHistory(zones, hist, temps, now, window)[name] == hist[name]
  {
    UpdateHistoryKeeps(zones, hist, temps, now, window, name);
  }

  /** Every history is chronological. */
  predicate AllChronological(hist: Histories)
  {
    forall name :: name in hist ==> Chronological(hist[name])
  }

  /** No stored sample is newer than `now`. */
  predicate NoneNewer(hist: Histories, now: real)
  {
    forall name, i :: name in hist && 0 <= i < |hist[name]| ==> hist[name][i].0 <= now
  }

  /** A bounded append of a sample taken at `now` stores nothing newer than `now`. */
  lemma PushNoneNewer(h: History, s: Sample, window: nat, now: real)
    requires forall i :: 0 <= i < |h| ==> h[i].0 <= now
    requires s.0 == now
    ensures forall i :: 0 <= i < |Push(h, s, window)| ==> Push(h, s, window)[i].0 <= now
  {
    var full := h + [s];
    var r := Push(h, s, window);
    var d := |h| + 1 - |r|;
    forall i | 0 <= i < |r|
      ensures r[i].0 <= now
    {
      assert r[i] == full[d + i];
      if d + i < |h| {
        assert full[d + i] == h[d + i];
      }
    }
  }

  /**
   * With no stored sample newer than `now`, recording a snapshot at `now`
   * keeps every history chronological and still nothing newer than `now`.
   */
  lemma {:induction false} UpdateHistoryChronological(zones: seq<Zone>, hist: Histories, temps: Temps, now: real, window: nat)
    requires Covers(zones, hist) && AllChronological(hist) && NoneNewer(hist, now)
    ensures AllChronological(UpdateHistory(zones, hist, temps, now, window))
    ensures NoneNewer(UpdateHistory(zones, hist, temps, now, window), now)
    decreases |zones|
  {
    if |zones| > 0 {
      var name := zones[0].name;
      var next := if HasReading(temps, name) then hist[name := Push(hist[name], (now, temps[name]), window)] else hist;
      CoversTail(zones, hist, next);
      if HasReading(temps, name) {
        var h := hist[name];
        assert forall i :: 0 <= i < |h| ==> h[i].0 <= now;
        PushChronological(h, (now, temps[name]), window);
        PushNoneNewer(h, (now, temps[name]), window, now);
      }
      UpdateHistoryChronological(zones[1..], next, temps, now, window);
    }
  }

  // ---------------------------------------------------------------------
  // Trend
  // ---------------------------------------------------------------------

  /**
   * `calculate_trend`: the least-squares slope over the zone's window, with
   * timestamps taken relative to the first sample, divided by the zone's
   * hysteresis band and clamped to [-1, 1]. Fewer than two samples, a zero
   * denominator, an unknown zone and an empty band all give 0.0. A name
   * without a history raises KeyError in the source and is excluded here.
   */
  function Trend(zones: seq<Zone>, hist: Histories, name: string): (r: real)
    requires name in hist
    ensures -1.0 <= r <= 1.0
    ensures |hist[name]| < 2 ==> r == 0.0
    ensures Slope(hist[name]) == 0.0 ==> r == 0.0
    ensures !Named(zones, name) ==> r == 0.0
    ensures Named(zones, name) && Find(zones, name).value.Span() <= 0.0 ==> r == 0.0
  {
    match Find(zones, name)
    case None => 0.0
    case Some(z) =>
      if z.Span() <= 0.0 then 0.0 else Clamp(Div(Slope(hist[name]), z.Span()))
  }

  /** A window with a steady temperature has no trend. */
  lemma TrendSteady(zones: seq<Zone>, hist: Histories, name: string, v: real)
    requires name in hist && Steady(hist[name], v)
    ensures Trend(zones, hist, name) == 0.0
  {
    SteadySlope(hist[name], v);
  }

  /** A window whose samples all share one timestamp has no trend. */
  lemma TrendSameTime(zones: seq<Zone>, hist: Histories, name: string)
    requires name in hist && SameTime(hist[name])
    ensures Trend(zones, hist, name) == 0.0
  {
    SameTimeSlope(hist[name]);
  }

  /**
   * Two samples at distinct times: the trend is the two-point slope
   * (y1 - y0) / (t1 - t0) over the band, clamped.
   */
  lemma TrendPair(zones: seq<Zone>, hist: Histories, name: string, z: Zone)
    requires name in hist && |hist[name]| == 2 && hist[name][0].0 != hist[name][1].0
    requires Find(zones, name) == Some(z) && z.Span() > 0.0
    ensures Trend(zones, hist, name)
         == Clamp((hist[name][1].1 - hist[name][0].1) / (hist[name][1].0 - hist[name][0].0) / z.Span())
  {
    PairSlope(hist[name]);
  }

  // ---------------------------------------------------------------------
  // Severity
  // ---------------------------------------------------------------------

  /** `zone_severity`: the level of the first zone with that name, 0 for an unknown name. */
  function ZoneSeverity(zones: seq<Zone>, name: string, temp: real): (r: int)
    ensures 0 <= r <= 2
    ensures !Named(zones, name) ==> r == 0
    ensures Named(zones, name) ==> r == Level(Find(zones, name).value, temp)
  {
    match Find(zones, name)
    case None => 0
    case Some(z) => Level(z, temp)
  }

  /** In a catalog without duplicates, the i-th zone's severity is its own level. */
  lemma ZoneSeverityDistinct(zones: seq<Zone>, i: int, temp: real)
    requires DistinctNames(zones) && 0 <= i < |zones|
    ensures ZoneSeverity(zones, zones[i].name, temp) == Level(zones[i], temp)
  {
    FindDistinct(zones, i);
  }

  /** The severity the global maximum uses for the i-th zone: an absent reading counts as 0. */
  function SeverityAt(zones: seq<Zone>, temps: Temps, i: int): int
    requires 0 <= i < |zones|
  {
    ZoneSeverity(zones, zones[i].name, TempOr0(temps, zones[i].name))
  }

  /** The severity of every zone of the catalog, in catalog order. */
  function Severities(zones: seq<Zone>, temps: Temps): (r: seq<int>)
    ensures |r| == |zones|
    ensures forall i :: 0 <= i < |r| ==> r[i] == SeverityAt(zones, temps, i)
  {
    seq(|zones|, i requires 0 <= i < |zones| => SeverityAt(zones, temps, i))
  }

  /** The running maximum of the first k severities, starting from 0. */
  function MaxSeverity(vals: seq<int>, k: nat): (r: int)
    requires k <= |vals|
    ensures 0 <= r
    ensures forall i :: 0 <= i < k ==> vals[i] <= r
    ensures r == 0 || exists i :: 0 <= i < k && vals[i] == r
  {
    if k == 0 then 0
    else MaxInt(MaxSeverity(vals, k - 1), vals[k - 1])
  }

  /** `calculate_global_severity`: the maximum zone severity, 0 for an empty catalog. */
  function GlobalSeverity(zones: seq<Zone>, temps: Temps): (r: int)
    ensures 0 <= r <= 2
    ensures forall i :: 0 <= i < |zones| ==> SeverityAt(zones, temps, i) <= r
    ensures r == 0 || exists i :: 0 <= i < |zones| && SeverityAt(zones, temps, i) == r
  {
    var vals := Severities(zones, temps);
    MaxSeverity(vals, |vals|)
  }

  /** Global severity is 2 exactly when some zone reads at or above its trigger. */
  lemma GlobalSeverityHot(zones: seq<Zone>, temps: Temps)
    requires DistinctNames(zones)
    ensures GlobalSeverity(zones, temps) == 2
        <==> exists i :: 0 <= i < |zones| && TempOr0(temps, zones[i].name) >= zones[i].trigger
  {
    var r := GlobalSeverity(zones, temps);
    if r == 2 {
      var i :| 0 <= i < |zones| && SeverityAt(zones, temps, i) == 2;
      ZoneSeverityDistinct(zones, i, TempOr0(temps, zones[i].name));
    }
    if exists i :: 0 <= i < |zones| && TempOr0(temps, zones[i].name) >= zones[i].trigger {
      var i :| 0 <= i < |zones| && TempOr0(temps, zones[i].name) >= zones[i].trigger;
      ZoneSeverityDistinct(zones, i, TempOr0(temps, zones[i].name));
      assert SeverityAt(zones, temps, i) == 2;
    }
  }

  // ---------------------------------------------------------------------
  // Fans
  // ---------------------------------------------------------------------

  /** The i-th zone has a fan reading below its minimum. */
  predicate FanLowAt(zones: seq<Zone>, fans: Fans, i: int)
    requires 0 <= i < |zones|
  {
    zones[i].name in fans && fans[zones[i].name] < zones[i].minRpm
  }

  /** The catalog loop of `fans_too_low`: the first k zones, stopping at the first low fan. */
  function AnyFanLow(zones: seq<Zone>, fans: Fans, k: nat): (r: bool)
    requires k <= |zones|
    ensures r <==> exists i :: 0 <= i < k && FanLowAt(zones, fans, i)
  {
    if k == 0 then false
    else AnyFanLow(zones, fans, k - 1) || FanLowAt(zones, fans, k - 1)
  }

  /** `fans_too_low`: some configured zone present in the fan map is below its minimum. */
  function FansTooLow(zones: seq<Zone>, fans: Fans): (r: bool)
    ensures r <==> exists i :: 0 <= i < |zones| && FanLowAt(zones, fans, i)
    ensures |fans| == 0 ==> !r
  {
    if |fans| == 0 then false else AnyFanLow(zones, fans, |zones|)
  }

  /** A zone missing from the fan map is never flagged. */
  lemma AbsentFanNeverLow(zones: seq<Zone>, fans: Fans)
    requires forall i :: 0 <= i < |zones| ==> zones[i].name !in fans
    ensures !FansTooLow(zones, fans)
  {
  }

  // ---------------------------------------------------------------------
  // Weighted trend
  // ---------------------------------------------------------------------

  /** `weight * trend`, with the bound it keeps for a weight in [0, 1]. */
  function Weighted(w: real, t: real): (r: real)
    ensures 0.0 <= w <= 1.0 && -1.0 <= t <= 1.0 ==> -1.0 <= r <= 1.0
  {
    ScaledUnit(w, t);
    Mul(w, t)
  }

  /** The weighted trend of the i-th zone of the catalog. */
  function WeightedAt(s: Settings, hist: Histories, i: int): real
    requires 0 <= i < |s.zones| && Covers(s.zones, hist)
  {
    Weighted(s.Weight(s.zones[i].name), Trend(s.zones, hist, s.zones[i].name))
  }

  /** The weighted trend of every zone of the catalog, in catalog order. */
  function WeightedTrends(s: Settings, hist: Histories): (r: seq<real>)
    requires Covers(s.zones, hist)
    ensures |r| == |s.zones|
    ensures forall i :: 0 <= i < |r| ==> r[i] == WeightedAt(s, hist, i)
  {
    seq(|s.zones|, i requires 0 <= i < |s.zones| => WeightedAt(s, hist, i))
  }

  /**
   * The running maximum of the list `max_weighted_trend` builds over the
   * first k zones, `vals[i]` being the i-th zone's weighted trend: None
   * while no zone so far has a reading.
   */
  function MaxWeighted(zones: seq<Zone>, vals: seq<real>, temps: Temps, k: nat): (r: Option<real>)
    requires k <= |zones| == |vals|
    ensures r.None? <==> forall i :: 0 <= i < k ==> zones[i].name !in temps
    ensures r.Some? ==> forall i :: 0 <= i < k && zones[i].name in temps ==> vals[i] <= r.value
    ensures r.Some? ==> exists i :: 0 <= i < k && zones[i].name in temps && vals[i] == r.value
  {
    if k == 0 then None
    else
      var prev := MaxWeighted(zones, vals, temps, k - 1);
      if zones[k - 1].name !in temps then prev
      else
        match prev
        case None => Some(vals[k - 1])
        case Some(m) => Some(MaxReal(m, vals[k - 1]))
  }

  /** `max_weighted_trend`: the largest weighted trend over zones with a reading, 0.0 if there is none. */
  function MaxWeightedTrend(s: Settings, hist: Histories, temps: Temps): (r: real)
    requires Covers(s.zones, hist)
    ensures (forall i :: 0 <= i < |s.zones| ==> s.zones[i].name !in temps) ==> r == 0.0
    ensures forall i :: 0 <= i < |s.zones| && s.zones[i].name in temps ==> WeightedAt(s, hist, i) <= r
    ensures (exists i :: 0 <= i < |s.zones| && s.zones[i].name in temps) ==>
              exists i :: 0 <= i < |s.zones| && s.zones[i].name in temps && WeightedAt(s, hist, i) == r
  {
    var vals := WeightedTrends(s, hist);
    match MaxWeighted(s.zones, vals, temps, |s.zones|)
    case None => 0.0
    case Some(m) => m
  }

  /** Every listed weight is in [0, 1]; the 0.5 default is too. */
  predicate UnitWeights(s: Settings)
  {
    forall name :: name in s.zoneWeights ==> 0.0 <= s.zoneWeights[name] <= 1.0
  }

  /** With weights in [0, 1], the weighted trend stays in [-1, 1]. */
  lemma MaxWeightedTrendBounded(s: Settings, hist: Histories, temps: Temps)
    requires Covers(s.zones, hist) && UnitWeights(s)
    ensures -1.0 <= MaxWeightedTrend(s, hist, temps) <= 1.0
  {
    var r := MaxWeightedTrend(s, hist, temps);
    if r != 0.0 {
      var i :| 0 <= i < |s.zones| && s.zones[i].name in temps && WeightedAt(s, hist, i) == r;
      assert 0.0 <= s.Weight(s.zones[i].name) <= 1.0;
    }
  }

  // ---------------------------------------------------------------------
  // Hotness
  // ---------------------------------------------------------------------

  /** One zone's hotness: its position between release and trigger, capped at 1. */
  function ZoneHotness(z: Zone, temp: real): (r: real)
    ensures 0.0 <= r <= 1.0
    ensures temp < z.release || z.Span() <= 0.0 ==> r == 0.0
    ensures z.Span() > 0.0 && temp >= z.trigger ==> r == 1.0
    ensures z.Span() > 0.0 && z.release <= temp < z.trigger ==> r == (temp - z.release) / z.Span()
  {
    if temp < z.release then 0.0
    else
      var span := z.Span();
      if span <= 0.0 then 0.0
      else MinReal(1.0, Div(temp - z.release, span))
  }

  /** Hotness and severity agree: a hot zone is at least at level 1, and full hotness is level 2. */
  lemma HotnessSeverity(z: Zone, temp: real)
    requires z.Span() > 0.0
    ensures ZoneHotness(z, temp) > 0.0 ==> Level(z, temp) >= 1
    ensures ZoneHotness(z, temp) == 1.0 <==> Level(z, temp) == 2
  {
  }

  /** The running hotness over the first k zones, starting from 0.0. */
  function MaxHotness(zones: seq<Zone>, temps: Temps, k: nat): (r: real)
    requires k <= |zones|
    ensures 0.0 <= r <= 1.0
    ensures forall i :: 0 <= i < k ==> ZoneHotness(zones[i], TempOr0(temps, zones[i].name)) <= r
    ensures r == 0.0 || exists i :: 0 <= i < k && ZoneHotness(zones[i], TempOr0(temps, zones[i].name)) == r
  {
    if k == 0 then 0.0
    else MaxReal(MaxHotness(zones, temps, k - 1), ZoneHotness(zones[k - 1], TempOr0(temps, zones[k - 1].name)))
  }

  /** `compute_global_hot`: the largest zone hotness, absent zones read as 0 degrees. */
  function GlobalHotness(zones: seq<Zone>, temps: Temps): (r: real)
    ensures 0.0 <= r <= 1.0
    ensures forall i :: 0 <= i < |zones| ==> ZoneHotness(zones[i], TempOr0(temps, zones[i].name)) <= r
    ensures r == 0.0 || exists i :: 0 <= i < |zones| && ZoneHotness(zones[i], TempOr0(temps, zones[i].name)) == r
  {
    MaxHotness(zones, temps, |zones|)
  }

  /** With every zone below its release, the global hotness is 0. */
  lemma GlobalHotnessCool(zones: seq<Zone>, temps: Temps)
    requires forall i :: 0 <= i < |zones| ==> TempOr0(temps, zones[i].name) < zones[i].release
    ensures GlobalHotness(zones, temps) == 0.0
  {
    forall i | 0 <= i < |zones|
      ensures ZoneHotness(zones[i], TempOr0(temps, zones[i].name)) == 0.0
    {
    }
  }
}

=== FILE: base.dfy ===
/** The optional value used wherever the source uses `None`. */
module Wrappers {

  datatype Option<+T> = None | Some(value: T)
}

/** Numeric helpers standing in for Python's `int()`, `min` and `max` on numbers. */
module Numeric {

  /** Python's `int()` on a float: truncation toward zero. */
  function Trunc(x: real): (r: int)
    ensures 0.0 <= x ==> 0 <= r && r as real <= x < r as real + 1.0
    ensures x <= 0.0 ==> r <= 0 && r as real - 1.0 < x <= r as real
  {
    if x >= 0.0 then x.Floor else -((-x).Floor)
  }

  function MaxInt(a: int, b: int): int { if a >= b then a else b }

  function MinInt(a: int, b: int): int { if a <= b then a else b }

  function MaxReal(a: real, b: real): real { if a >= b then a else b }

  function MinReal(a: real, b: real): real { if a <= b then a else b }

  /**
   * Real multiplication as a named function. Products are written through
   * `Mul` where a proof relates them: it keeps its operands in place, so two
   * occurrences of one product are matched by their arguments.
   */
  function Mul(a: real, b: real): real { a * b }

  lemma MulNonNeg(x: real, y: real)
    requires 0.0 <= x && 0.0 <= y
    ensures 0.0 <= x * y
  {
  }

  lemma DivFacts(a: real, d: real)
    requires d != 0.0
    ensures a == 0.0 ==> a / d == 0.0
    ensures 0.0 < d && 0.0 <= a ==> 0.0 <= a / d
    ensures 0.0 < d && a < d ==> a / d < 1.0
    ensures 0.0 < d && d <= a ==> 1.0 <= a / d
  {
    var r := a / d;
    assert r * d == a;
    if 0.0 < d {
      if r < 0.0 { MulNonNeg(-r, d); assert (-r) * d == -(r * d); }
      if 1.0 <= r { MulNonNeg(r - 1.0, d); assert (r - 1.0) * d == r * d - d; }
      if r < 1.0 { MulNonNeg(1.0 - r, d); assert (1.0 - r) * d == d - r * d; }
    }
  }

  /**
   * Python's true division `a / d` with a non-zero divisor: the sign of the
   * quotient and its comparison with 1.
   */
  function Div(a: real, d: real): (r: real)
    requires d != 0.0
    ensures a == 0.0 ==> r == 0.0
    ensures 0.0 < d && 0.0 <= a ==> 0.0 <= r
    ensures 0.0 < d && a < d ==> r < 1.0
    ensures 0.0 < d && d <= a ==> 1.0 <= r
  {
    DivFacts(a, d);
    a / d
  }

  // The four scaling lemmas below state their hypotheses as implications,
  // so that a caller can invoke them for every sign of the factor and let
  // its own case split pick the clause that applies.

  /** A weight in [0, 1] times a value in [-1, 1] stays in [-1, 1]. */
  lemma ScaledUnit(w: real, t: real)
    ensures 0.0 <= w <= 1.0 && -1.0 <= t <= 1.0 ==> -1.0 <= Mul(w, t) <= 1.0
  {
    if 0.0 <= w <= 1.0 && -1.0 <= t <= 1.0 {
      if 0.0 <= t {
        MulNonNeg(w, t);
        MulNonNeg(1.0 - w, t);
        assert (1.0 - w) * t == t - w * t;
      } else {
        MulNonNeg(w, -t);
        MulNonNeg(1.0 - w, -t);
        assert w * (-t) == -(w * t);
        assert (1.0 - w) * (-t) == w * t - t;
      }
    }
  }

  /** The sign of a product with a non-negative left factor. */
  lemma MulSign(s: real, t: real)
    ensures 0.0 <= s && 0.0 <= t ==> 0.0 <= Mul(s, t)
    ensures 0.0 <= s && t <= 0.0 ==> Mul(s, t) <= 0.0
  {
    if 0.0 <= s && 0.0 <= t {
      MulNonNeg(s, t);
    }
    if 0.0 <= s && t <= 0.0 {
      MulNonNeg(s, -t);
      assert s * (-t) == -(s * t);
    }
  }

  /** Scaling a non-negative amount by a factor in [0, 1] never grows it. */
  lemma ScaleDown(o: real, f: real)
    ensures 0.0 <= o && 0.0 <= f <= 1.0 ==> 0.0 <= Mul(o, f) <= o
  {
    if 0.0 <= o && 0.0 <= f <= 1.0 {
      MulNonNeg(o, f);
      MulNonNeg(o, 1.0 - f);
      assert o * (1.0 - f) == o - o * f;
    }
  }

  /** Scaling a non-negative amount by a factor of at least 1 never shrinks it. */
  lemma ScaleUp(o: real, f: real)
    ensures 0.0 <= o && 1.0 <= f ==> o <= Mul(o, f)
  {
    if 0.0 <= o && 1.0 <= f {
      MulNonNeg(o, f - 1.0);
      assert o * (f - 1.0) == o * f - o;
    }
  }

  /** Truncation is monotone. */
  lemma TruncMonotone(x: real, y: real)
    requires x <= y
    ensures Trunc(x) <= Trunc(y)
  {
  }

  /** `max(-1.0, min(1.0, x))`: the trend clamp. */
  function Clamp(x: real): (r: real)
    ensures -1.0 <= r <= 1.0
    ensures -1.0 <= x <= 1.0 ==> r == x
    ensures x > 1.0 ==> r == 1.0
    ensures x < -1.0 ==> r == -1.0
  {
    MaxReal(-1.0, MinReal(1.0, x))
  }
}

=== FILE: cadence.dfy ===
/**
 * The cadence planner: the performance hold (`on`) and the balanced hold
 * (`off`), in whole seconds, for one tick. It starts from the base cadence
 * of the global severity, shortens the rest and lengthens the pulse with
 * the hotness, and then scales both with the weighted trend.
 */
module Pulse {
  import opened Numeric
  import opened Config

  /** The fallback when the table has no entry for the severity. */
  const FallbackCadence: Cadence := Cadence(1, 10)

  /** Cap on the pulse while heating. */
  const MaxHeatingOn: int := 30

  /** Cap on the rest while cooling. */
  const MaxCoolingOff: int := 60

  /** `base_cadence.get(sev, {"on": 1, "off": 10})`. */
  function BaseFor(table: map<int, Cadence>, sev: int): (r: Cadence)
    ensures sev in table ==> r == table[sev]
    ensures sev !in table ==> r == FallbackCadence
  {
    if sev in table then table[sev] else FallbackCadence
  }

  /**
   * The distance-to-trigger step: the rest shrinks by up to 7 seconds and
   * the pulse grows by up to 5 seconds, both floored at 1 second.
   */
  function HotAdjust(c: Cadence, hot: real): (r: Cadence)
    ensures r.on >= 1 && r.off >= 1
    ensures 0.0 <= hot <= 1.0 ==> MaxInt(1, c.on) <= r.on <= MaxInt(1, c.on + 5)
    ensures 0.0 <= hot <= 1.0 ==> MaxInt(1, c.off - 7) <= r.off <= MaxInt(1, c.off)
  {
    Cadence(MaxInt(1, c.on + Trunc(5.0 * hot)), MaxInt(1, c.off - Trunc(7.0 * hot)))
  }

  /** A hotter system never gets a longer rest or a shorter pulse. */
  lemma HotAdjustMonotone(c: Cadence, hot: real, hot': real)
    requires hot <= hot'
    ensures HotAdjust(c, hot').off <= HotAdjust(c, hot).off
    ensures HotAdjust(c, hot).on <= HotAdjust(c, hot').on
  {
    TruncMonotone(5.0 * hot, 5.0 * hot');
    TruncMonotone(7.0 * hot, 7.0 * hot');
  }

  /** A sensitivity in [0, 1] and a trend in [-1, 1]. */
  predicate UnitInputs(s: real, t: real)
  {
    0.0 <= s <= 1.0 && -1.0 <= t <= 1.0
  }

  /**
   * The trend step with sensitivity `s`. Heating (t > 0) scales the rest by
   * 1 - s*t, floored at 1, and the pulse by 1 + s*t, capped at 30; cooling
   * (t < 0) applies the same factors with the cap on the rest (60) and the
   * floor on the pulse. A zero trend leaves the cadence as it is.
   */
  function TrendAdjust(c: Cadence, s: real, t: real): (r: Cadence)
    ensures t == 0.0 ==> r == c
    ensures t > 0.0 ==> r.off >= 1 && r.on <= MaxHeatingOn
    ensures t < 0.0 ==> r.on >= 1 && r.off <= MaxCoolingOff
    ensures UnitInputs(s, t) && t > 0.0 && c.on >= 0 && c.off >= 0 ==>
              r.off <= MaxInt(1, c.off) && MinInt(MaxHeatingOn, c.on) <= r.on
    ensures UnitInputs(s, t) && t < 0.0 && c.on >= 0 && c.off >= 0 ==>
              r.on <= MaxInt(1, c.on) && MinInt(MaxCoolingOff, c.off) <= r.off
  {
    ScaledUnit(s, t);
    MulSign(s, t);
    ScaleDown(c.off as real, 1.0 - Mul(s, t));
    ScaleUp(c.on as real, 1.0 + Mul(s, t));
    ScaleDown(c.on as real, 1.0 + Mul(s, t));
    ScaleUp(c.off as real, 1.0 - Mul(s, t));
    if t > 0.0 then
      Cadence(MinInt(MaxHeatingOn, Trunc(Mul(c.on as real, 1.0 + Mul(s, t)))),
              MaxInt(1, Trunc(Mul(c.off as real, 1.0 - Mul(s, t)))))
    else if t < 0.0 then
      Cadence(MaxInt(1, Trunc(Mul(c.on as real, 1.0 + Mul(s, t)))),
              MinInt(MaxCoolingOff, Trunc(Mul(c.off as real, 1.0 - Mul(s, t)))))
    else
      c
  }

  /** `_cadence_for`: base cadence, hotness step, trend step. */
  function CadenceFor(cfg: Settings, sev: int, trend: real, hot: real): (r: Cadence)
    ensures UnitInputs(cfg.trendSensitivity, trend) ==> r.on >= 1 && r.off >= 1
    ensures trend > 0.0 ==> r.on <= MaxHeatingOn
    ensures trend < 0.0 ==> r.off <= MaxCoolingOff
  {
    TrendAdjust(HotAdjust(BaseFor(cfg.baseCadence, sev), hot), cfg.trendSensitivity, trend)
  }

  /** Heating never lengthens the rest or shortens the pulse that the hotness step chose. */
  lemma HeatingDirection(cfg: Settings, sev: int, trend: real, hot: real)
    requires UnitInputs(cfg.trendSensitivity, trend) && trend > 0.0
    ensures CadenceFor(cfg, sev, trend, hot).off <= HotAdjust(BaseFor(cfg.baseCadence, sev), hot).off
    ensures CadenceFor(cfg, sev, trend, hot).on >= MinInt(MaxHeatingOn, HotAdjust(BaseFor(cfg.baseCadence, sev), hot).on)
  {
  }

  /** Cooling never shortens the rest (below the cap) or lengthens the pulse that the hotness step chose. */
  lemma CoolingDirection(cfg: Settings, sev: int, trend: real, hot: real)
    requires UnitInputs(cfg.trendSensitivity, trend) && trend < 0.0
    ensures CadenceFor(cfg, sev, trend, hot).on <= HotAdjust(BaseFor(cfg.baseCadence, sev), hot).on
    ensures CadenceFor(cfg, sev, trend, hot).off >= MinInt(MaxCoolingOff, HotAdjust(BaseFor(cfg.baseCadence, sev), hot).off)
  {
  }

  /**
   * Heating by enough to take at least a second off the rest shortens it:
   * the rest is scaled by 1 - s*t, so it loses `off * s * t` seconds before
   * truncation.
   */
  lemma HeatingShortensRest(c: Cadence, s: real, t: real)
    requires UnitInputs(s, t) && t > 0.0 && c.on >= 0 && c.off >= 2
    requires Mul(c.off as real, Mul(s, t)) >= 1.0
    ensures TrendAdjust(c, s, t).off < c.off
  {
    assert Mul(c.off as real, 1.0 - Mul(s, t)) == c.off as real - Mul(c.off as real, Mul(s, t));
    ScaledUnit(s, t);
    ScaleDown(c.off as real, 1.0 - Mul(s, t));
  }

  /**
   * Heating by enough to add at least a second to the pulse lengthens it,
   * unless it is already at the cap.
   */
  lemma HeatingLengthensPulse(c: Cadence, s: real, t: real)
    requires UnitInputs(s, t) && t > 0.0 && 0 <= c.on < MaxHeatingOn && c.off >= 0
    requires Mul(c.on as real, Mul(s, t)) >= 1.0
    ensures TrendAdjust(c, s, t).on > c.on
  {
    assert Mul(c.on as real, 1.0 + Mul(s, t)) == c.on as real + Mul(c.on as real, Mul(s, t));
    TruncMonotone((c.on + 1) as real, Mul(c.on as real, 1.0 + Mul(s, t)));
  }

  /**
   * Cooling by enough to add at least a second to the rest lengthens it,
   * unless it is already at the cap.
   */
  lemma CoolingLengthensRest(c: Cadence, s: real, t: real)
    requires UnitInputs(s, t) && t < 0.0 && c.on >= 0 && 0 <= c.off < MaxCoolingOff
    requires Mul(c.off as real, Mul(s, t)) <= -1.0
    ensures TrendAdjust(c, s, t).off > c.off
  {
    assert Mul(c.off as real, 1.0 - Mul(s, t)) == c.off as real - Mul(c.off as real, Mul(s, t));
    TruncMonotone((c.off + 1) as real, Mul(c.off as real, 1.0 - Mul(s, t)));
  }

  /** Cooling by enough to take at least a second off the pulse shortens it. */
  lemma CoolingShortensPulse(c: Cadence, s: real, t: real)
    requires UnitInputs(s, t) && t < 0.0 && c.on >= 2 && c.off >= 0
    requires Mul(c.on as real, Mul(s, t)) <= -1.0
    ensures TrendAdjust(c, s, t).on < c.on
  {
    assert Mul(c.on as real, 1.0 + Mul(s, t)) == c.on as real + Mul(c.on as real, Mul(s, t));
    ScaledUnit(s, t);
    ScaleDown(c.on as real, 1.0 + Mul(s, t));
  }

  /** A balanced hold of 30 seconds at full hotness drops to 30 - 7 = 23 before the trend step. */
  lemma FullHotnessRest(on: int)
    ensures HotAdjust(Cadence(on, 30), 1.0).off == 23
  {
    assert Trunc(7.0 * 1.0) == 7;
  }

  /** Default table, warm and at full hotness, flat trend: a 6 second pulse and a 23 second rest. */
  lemma WarmFullHotness(zones: seq<Zone>)
    ensures CadenceFor(Defaults(zones), 1, 0.0, 1.0) == Cadence(6, 23)
  {
    assert Trunc(5.0 * 1.0) == 5 && Trunc(7.0 * 1.0) == 7;
  }

  /**
   * Default table, warm, at full hotness and full heating: the (6, 23)
   * cadence is scaled by 1.3 and 0.7 into a 7 second pulse and a 16 second
   * rest.
   */
  lemma WarmFullHeating(zones: seq<Zone>)
    ensures CadenceFor(Defaults(zones), 1, 1.0, 1.0) == Cadence(7, 16)
  {
    assert Trunc(5.0 * 1.0) == 5 && Trunc(7.0 * 1.0) == 7;
    assert Mul(0.3, 1.0) == 0.3;
    assert Mul(6.0, 1.3) == 7.8 && Mul(23.0, 0.7) == 16.1;
    assert Trunc(7.8) == 7 && Trunc(16.1) == 16;
  }

  /**
   * Default table, cool, not hot, any cooling trend: the "indefinite" rest
   * of 9999 seconds is capped to 60 and the pulse stays at 1 second.
   */
  lemma CoolingCapsIndefiniteRest(zones: seq<Zone>, trend: real)
    requires -1.0 <= trend < 0.0
    ensures CadenceFor(Defaults(zones), 0, trend, 0.0) == Cadence(1, 60)
  {
    var s := 0.3;
    var c := HotAdjust(Cadence(0, 9999), 0.0);
    assert Trunc(5.0 * 0.0) == 0 && Trunc(7.0 * 0.0) == 0;
    assert c == Cadence(1, 9999);
    ScaledUnit(s, trend);
    MulSign(s, trend);
    ScaleUp(9999.0, 1.0 - Mul(s, trend));
    ScaleDown(1.0, 1.0 + Mul(s, trend));
  }
}

=== FILE: config.dfy ===
/**
 * The zone catalog and the typed configuration record of the controller.
 * Loading the YAML document is not modelled; `Defaults` carries the
 * fallback value of every key the controller reads.
 */
module Config {
  import opened Wrappers

  /**
   * A thermal zone. The sensor-matching regexes and the logging-only
   * maximum RPM belong to the sensor reader and are not kept here.
   */
  datatype Zone = Zone(name: string, trigger: real, release: real, minRpm: int)
  {
    /** Width of the hysteresis band between release and trigger. */
    function Span(): real { trigger - release }
  }

  /**
   * The severity of one reading against one zone: 2 at or above the trigger,
   * 1 at or above the release, 0 below both.
   */
  function Level(z: Zone, temp: real): (r: int)
    ensures r == 2 <==> temp >= z.trigger
    ensures r == 1 <==> z.release <= temp < z.trigger
    ensures r == 0 <==> temp < z.release && temp < z.trigger
  {
    if temp >= z.trigger then 2
    else if temp >= z.release then 1
    else 0
  }

  /** A hotter reading never lowers the severity. */
  lemma LevelMonotone(z: Zone, t: real, t': real)
    requires t <= t'
    ensures Level(z, t) <= Level(z, t')
  {
  }

  /** Hold times in seconds: `on` in performance, `off` in balanced. */
  datatype Cadence = Cadence(on: int, off: int)

  /** Some zone of the catalog carries this name. */
  predicate Named(zones: seq<Zone>, name: string)
  {
    exists i :: 0 <= i < |zones| && zones[i].name == name
  }

  /** The set of configured zone names. */
  function Names(zones: seq<Zone>): (r: set<string>)
    ensures forall name :: name in r <==> Named(zones, name)
  {
    set i | 0 <= i < |zones| :: zones[i].name
  }

  /** No name occurs twice in the catalog. */
  predicate DistinctNames(zones: seq<Zone>)
  {
    forall i, j :: 0 <= i < j < |zones| ==> zones[i].name != zones[j].name
  }

  /** The first zone with the given name, as `next(z for z in zones if ...)` finds it. */
  function Find(zones: seq<Zone>, name: string): (r: Option<Zone>)
    ensures r.None? <==> !Named(zones, name)
    ensures r.Some? ==> r.value in zones && r.value.name == name
    ensures r.Some? ==> exists i :: 0 <= i < |zones| && zones[i] == r.value
                                 && forall j :: 0 <= j < i ==> zones[j].name != name
  {
    if |zones| == 0 then None
    else if zones[0].name == name then Some(zones[0])
    else Find(zones[1..], name)
  }

  /** In a catalog without duplicate names a zone is found by its own name. */
  lemma {:induction false} FindDistinct(zones: seq<Zone>, i: int)
    requires DistinctNames(zones)
    requires 0 <= i < |zones|
    ensures Find(zones, zones[i].name) == Some(zones[i])
  {
    if i > 0 {
      assert zones[0].name != zones[i].name;
      FindDistinct(zones[1..], i - 1);
    }
  }

  /** The configuration values the controller and the analyzer read. */
  datatype Settings = Settings(
    zones: seq<Zone>,
    logInterval: real,
    initialBoost: real,
    criticalTemp: real,
    historyWindow: nat,
    trendSensitivity: real,
    emergencyDebounce: int,
    baseCadence: map<int, Cadence>,
    zoneWeights: map<string, real>)
  {
    /** A zone's weight in the global trend, 0.5 for an unlisted zone. */
    function Weight(name: string): real
    {
      if name in zoneWeights then zoneWeights[name] else 0.5
    }
  }

  const DefaultBaseCadence: map<int, Cadence> :=
    map[0 := Cadence(0, 9999), 1 := Cadence(1, 30), 2 := Cadence(4, 12)]

  const DefaultZoneWeights: map<string, real> :=
    map["cpu" := 1.0, "gpu" := 1.0, "memory" := 0.6, "ambient" := 0.4]

  /** The settings obtained when the document names only its zones. */
  function Defaults(zones: seq<Zone>): (s: Settings)
    ensures s.zones == zones
    ensures s.initialBoost == 5.0 && s.criticalTemp == 95.0 && s.emergencyDebounce == 3
    ensures s.historyWindow == 30 && s.logInterval == 10.0 && s.trendSensitivity == 0.3
    ensures s.Weight("cpu") == 1.0 && s.Weight("ambient") == 0.4
  {
    Settings(zones, 10.0, 5.0, 95.0, 30, 0.3, 3, DefaultBaseCadence, DefaultZoneWeights)
  }
}

/** Per-tick sensor snapshots as the sensor reader hands them over. */
module Snapshot {

  /** Zone name to temperature in degrees Celsius. */
  type Temps = map<string, real>

  /** Zone name to fan speed in RPM. */
  type Fans = map<string, int>

  /** `temps.get(name, 0)`: an absent zone reads as 0 degrees. */
  function TempOr0(temps: Temps, name: string): real
  {
    if name in temps then temps[name] else 0.0
  }

  /** `temps.get(name)` is truthy: present and not exactly 0.0. */
  predicate HasReading(temps: Temps, name: string)
  {
    name in temps && temps[name] != 0.0
  }

  /** Some reading of the snapshot, configured zone or not, is at least `limit`. */
  predicate AnyAtLeast(temps: Temps, limit: real)
  {
    exists name :: name in temps && temps[name] >= limit
  }
}

=== FILE: controller.dfy ===
/**
 * The pulse controller: one immutable state and a pure `Tick` that clears
 * an expired lock, records the snapshot in the histories, runs the
 * debounced emergency latch, and, unless an emergency or a lock is in force,
 * plans a cadence and drives the boost/normal state machine. Lock and unlock
 * requests are separate operations on the same state. Every profile write
 * is returned as a `Write` intent instead of being performed.
 */
module Controller {
  import opened Wrappers
  import opened Config
  import opened Snapshot
  import opened Analyzer
  import opened Pulse
  import opened Profiles

  datatype Phase = InitialBoost | Normal

  /**
   * The user lock: the locked profile and the absolute expiry, `None` for a
   * lock without expiry.
   */
  datatype Lock = Unlocked | Locked(profile: Profile, until: Option<real>)

  datatype State = State(
    phase: Phase,
    profile: Profile,      // the profile the controller believes is set
    lastSwitch: real,
    emergency: bool,
    lastLog: real,
    lastSeverity: int,
    overCounter: int,
    lock: Lock,
    hist: Histories)

  /** A state together with the writes issued on the way to it, in order. */
  datatype Outcome = Outcome(state: State, writes: seq<Write>)

  /** The state on start-up: boosting in performance, with an empty history per zone. */
  function Init(cfg: Settings, now: real): (st: State)
    ensures st.phase == InitialBoost && st.profile == Performance && st.lastSwitch == now
    ensures !st.emergency && st.overCounter == 0 && st.lock == Unlocked
    ensures st.hist.Keys == Names(cfg.zones)
    ensures Covers(cfg.zones, st.hist) && Bounded(st.hist, cfg.historyWindow)
    ensures forall name :: name in st.hist ==> st.hist[name] == []
    ensures st.lastLog == 0.0 && st.lastSeverity == 0
  {
    State(InitialBoost, Performance, now, false, 0.0, 0, 0, Unlocked,
          map name | name in Names(cfg.zones) :: [])
  }

  // ---------------------------------------------------------------------
  // Switching the profile
  // ---------------------------------------------------------------------

  /**
   * `_set_profile`: writes and records `p` when forced or when it differs
   * from the believed profile; otherwise nothing happens. The believed
   * profile is updated whether or not the firmware write succeeds.
   */
  function SetProfile(st: State, p: Profile, force: bool, now: real): (r: Outcome)
    ensures r.state.profile == p
    ensures r.writes == [] <==> !force && st.profile == p
    ensures r.writes == [] ==> r.state == st
    ensures r.writes != [] ==> r.writes == [Write(p, force)] && r.state.lastSwitch == now
    ensures r.state.(profile := st.profile, lastSwitch := st.lastSwitch) == st
  {
    if force || st.profile != p then
      Outcome(st.(profile := p, lastSwitch := now), [Write(p, force)])
    else
      Outcome(st, [])
  }

  /** An unforced switch repeated at any later time is a no-op. */
  lemma SetProfileIdempotent(st: State, p: Profile, force: bool, now: real, later: real)
    ensures SetProfile(SetProfile(st, p, force, now).state, p, false, later)
            == Outcome(SetProfile(st, p, force, now).state, [])
  {
  }

  // ---------------------------------------------------------------------
  // The emergency latch
  // ---------------------------------------------------------------------

  /** The consecutive-overheat counter and the emergency flag. */
  datatype Latch = Latch(counter: int, emergency: bool)

  /**
   * One tick of `handle_emergency` on the latch: count a critical tick,
   * reset on any other; engage at `n`, release when the count is back to 0.
   */
  function Debounce(l: Latch, critical: bool, n: int): (r: Latch)
    ensures critical ==> r.counter == l.counter + 1
    ensures !critical ==> r.counter == 0
    ensures r.emergency <==> r.counter >= n || (l.emergency && r.counter != 0)
  {
    var counter := if critical then l.counter + 1 else 0;
    if counter >= n then Latch(counter, true)
    else if l.emergency && counter == 0 then Latch(counter, false)
    else Latch(counter, l.emergency)
  }

  /** The latch is engaged exactly when the count has reached `n`. */
  predicate Synced(l: Latch, n: int)
  {
    0 <= l.counter && (l.emergency <==> l.counter >= n)
  }

  /** From a synced latch, one tick keeps it synced: emergency implies a count of at least `n`. */
  lemma DebounceSynced(l: Latch, critical: bool, n: int)
    requires n >= 1 && Synced(l, n)
    ensures Synced(Debounce(l, critical, n), n)
  {
  }

  /** The latch after the first k ticks of a run of critical/not-critical ticks. */
  function RunLatch(l: Latch, flags: seq<bool>, n: int, k: nat): Latch
    requires k <= |flags|
  {
    if k == 0 then l else Debounce(RunLatch(l, flags, n, k - 1), flags[k - 1], n)
  }

  /** The number of consecutive critical ticks that end the first k ticks. */
  function Streak(flags: seq<bool>, k: nat): (r: nat)
    requires k <= |flags|
    ensures r <= k
  {
    if k == 0 || !flags[k - 1] then 0 else Streak(flags, k - 1) + 1
  }

  /**
   * From a synced latch, the count is the current streak of critical ticks
   * (added to the starting count when the streak covers the whole run), and
   * emergency holds exactly when that count has reached `n`.
   */
  lemma {:induction false} RunLatchStreak(l: Latch, flags: seq<bool>, n: int, k: nat)
    requires n >= 1 && Synced(l, n) && k <= |flags|
    ensures RunLatch(l, flags, n, k).counter == (if Streak(flags, k) == k then l.counter + k else Streak(flags, k))
    ensures Synced(RunLatch(l, flags, n, k), n)
  {
    if k > 0 {
      RunLatchStreak(l, flags, n, k - 1);
      DebounceSynced(RunLatch(l, flags, n, k - 1), flags[k - 1], n);
    }
  }

  /**
   * From rest, emergency engages on the tick that completes `n` consecutive
   * critical ticks and not before.
   */
  lemma EmergencyAfterStreak(flags: seq<bool>, n: int, k: nat)
    requires n >= 1 && k <= |flags|
    ensures RunLatch(Latch(0, false), flags, n, k).emergency <==> Streak(flags, k) >= n
  {
    RunLatchStreak(Latch(0, false), flags, n, k);
  }

  /** Debounce 3: three critical ticks engage emergency on the third, not earlier. */
  lemma ThreeCriticalTicks()
    ensures !RunLatch(Latch(0, false), [true, true, true], 3, 1).emergency
    ensures !RunLatch(Latch(0, false), [true, true, true], 3, 2).emergency
    ensures RunLatch(Latch(0, false), [true, true, true], 3, 3).emergency
  {
  }

  /** Debounce 3: critical, normal, critical never engages emergency. */
  lemma InterruptedTicks(k: nat)
    requires k <= 3
    ensures !RunLatch(Latch(0, false), [true, false, true], 3, k).emergency
  {
    EmergencyAfterStreak([true, false, true], 3, k);
  }

  /** A single reading of 91 is critical at 90; a reading of 89 is not. */
  lemma CriticalReadings()
    ensures AnyAtLeast(map["cpu" := 91.0], 90.0)
    ensures !AnyAtLeast(map["cpu" := 89.0], 90.0)
  {
    assert map["cpu" := 91.0]["cpu"] >= 90.0;
  }

  /**
   * `handle_emergency`: runs the latch on "any reading is at least the
   * critical temperature"; entering the emergency forces performance.
   */
  function HandleEmergency(cfg: Settings, st: State, temps: Temps, now: real): (r: Outcome)
    ensures Latch(r.state.overCounter, r.state.emergency)
            == Debounce(Latch(st.overCounter, st.emergency), AnyAtLeast(temps, cfg.criticalTemp), cfg.emergencyDebounce)
    ensures !st.emergency && r.state.emergency ==>
              r.writes == [Write(Performance, true)] && r.state.profile == Performance && r.state.lastSwitch == now
    ensures st.emergency || !r.state.emergency ==>
              r.writes == [] && r.state.profile == st.profile && r.state.lastSwitch == st.lastSwitch
    ensures r.state.phase == st.phase && r.state.lock == st.lock && r.state.hist == st.hist
    ensures r.state.lastLog == st.lastLog && r.state.lastSeverity == st.lastSeverity
  {
    var l := Debounce(Latch(st.overCounter, st.emergency), AnyAtLeast(temps, cfg.criticalTemp), cfg.emergencyDebounce);
    var latched := st.(overCounter := l.counter, emergency := l.emergency);
    if l.emergency && !st.emergency then SetProfile(latched, Performance, true, now)
    else Outcome(latched, [])
  }

  // ---------------------------------------------------------------------
  // The state machine
  // ---------------------------------------------------------------------

  /** `handle_state_transition`: the boost phase and the performance/balanced pulsing. */
  function StateTransition(cfg: Settings, st: State, elapsed: real, cad: Cadence, fans: Fans, now: real): (r: Outcome)
    ensures r.state.phase == Normal <==> st.phase == Normal || elapsed >= cfg.initialBoost
    ensures st.phase == InitialBoost && elapsed >= cfg.initialBoost ==> r.state.profile == Balanced
    ensures st.phase == InitialBoost && elapsed < cfg.initialBoost ==> r == Outcome(st, [])
    ensures st.phase == Normal && st.profile == Performance ==>
              (r.state.profile == Balanced <==> elapsed >= cad.on as real)
    ensures st.phase == Normal && st.profile == Balanced ==>
              (r.state.profile == Performance <==> elapsed >= cad.off as real || FansTooLow(cfg.zones, fans))
    ensures r.writes == [] <==> r.state.profile == st.profile
    ensures r.writes != [] ==> r.writes == [Write(r.state.profile, false)] && r.state.lastSwitch == now
    ensures r.writes == [] ==> r.state.lastSwitch == st.lastSwitch
    ensures r.state.emergency == st.emergency && r.state.overCounter == st.overCounter && r.state.lock == st.lock
    ensures r.state.hist == st.hist && r.state.lastLog == st.lastLog && r.state.lastSeverity == st.lastSeverity
  {
    match st.phase
    case InitialBoost =>
      if elapsed >= cfg.initialBoost then
        var o := SetProfile(st, Balanced, false, now);
        Outcome(o.state.(phase := Normal), o.writes)
      else Outcome(st, [])
    case Normal =>
      if st.profile == Performance then
        if elapsed >= cad.on as real then SetProfile(st, Balanced, false, now) else Outcome(st, [])
      else if elapsed >= cad.off as real || FansTooLow(cfg.zones, fans) then
        SetProfile(st, Performance, false, now)
      else Outcome(st, [])
  }

  // ---------------------------------------------------------------------
  // Lock and unlock
  // ---------------------------------------------------------------------

  /** A lock request: the `profile` and `duration` entries, each possibly missing. */
  datatype LockRequest = LockRequest(profile: Option<string>, duration: Option<real>)

  /** The requested profile, when the request names one of the two profiles. */
  function RequestedProfile(req: Option<LockRequest>): (r: Option<Profile>)
    ensures r.Some? <==> req.Some? && req.value.profile.Some? && Parse(req.value.profile.value).Some?
    ensures r.Some? ==> Name(r.value) == req.value.profile.value
  {
    if req.Some? && req.value.profile.Some? then Parse(req.value.profile.value) else None
  }

  /** The lock expiry: `now + duration` for a non-zero duration, otherwise no expiry. */
  function LockUntil(req: LockRequest, now: real): (r: Option<real>)
    ensures r.Some? <==> req.duration.Some? && req.duration.value != 0.0
    ensures r.Some? ==> r.value == now + req.duration.value
  {
    if req.duration.Some? && req.duration.value != 0.0 then Some(now + req.duration.value) else None
  }

  /**
   * `_handle_profile_lock`: a missing request or an unknown profile changes
   * nothing; otherwise the lock is recorded and the profile force-written,
   * whatever the emergency state.
   */
  function HandleLock(st: State, req: Option<LockRequest>, now: real): (r: Outcome)
    ensures RequestedProfile(req).None? ==> r == Outcome(st, [])
    ensures RequestedProfile(req).Some? ==>
              r.state.lock == Locked(RequestedProfile(req).value, LockUntil(req.value, now))
              && r.writes == [Write(RequestedProfile(req).value, true)]
              && r.state.profile == RequestedProfile(req).value && r.state.lastSwitch == now
    ensures r.state.(lock := st.lock, profile := st.profile, lastSwitch := st.lastSwitch) == st
  {
    match RequestedProfile(req)
    case None => Outcome(st, [])
    case Some(p) => SetProfile(st.(lock := Locked(p, LockUntil(req.value, now))), p, true, now)
  }

  /** `_handle_profile_unlock`: clears the lock, touches nothing else and writes nothing. */
  function HandleUnlock(st: State): (r: State)
    ensures r.lock == Unlocked
    ensures r.(lock := st.lock) == st
  {
    st.(lock := Unlocked)
  }

  /** A lock has expired when it carries a non-zero expiry that `now` has reached. */
  predicate Expired(l: Lock, now: real)
  {
    l.Locked? && l.until.Some? && l.until.value != 0.0 && now >= l.until.value
  }

  /** The start of a tick: an expired lock is released, nothing else changes. */
  function ExpireLock(st: State, now: real): (r: State)
    ensures Expired(st.lock, now) ==> r.lock == Unlocked
    ensures !Expired(st.lock, now) ==> r == st
    ensures r.(lock := st.lock) == st
  {
    if Expired(st.lock, now) then HandleUnlock(st) else st
  }

  /** A lock made with a non-zero duration expires exactly once its duration has elapsed. */
  lemma LockExpiresAfterDuration(st: State, req: LockRequest, at: real, now: real)
    requires RequestedProfile(Some(req)).Some?
    requires req.duration.Some? && req.duration.value != 0.0 && at + req.duration.value != 0.0
    ensures Expired(HandleLock(st, Some(req), at).state.lock, now) <==> now - at >= req.duration.value
  {
  }

  /** A lock with no duration, or a zero one, never expires. */
  lemma IndefiniteLockNeverExpires(st: State, req: LockRequest, at: real, now: real)
    requires RequestedProfile(Some(req)).Some?
    requires req.duration.None? || req.duration.value == 0.0
    ensures !Expired(HandleLock(st, Some(req), at).state.lock, now)
  {
  }

  // ---------------------------------------------------------------------
  // Status logging
  // ---------------------------------------------------------------------

  /** The rate limit of `log_status`: a line at most once per interval; only `lastLog` changes. */
  function LogStatus(st: State, now: real, interval: real): (r: State)
    ensures now - st.lastLog < interval ==> r == st
    ensures now - st.lastLog >= interval ==> r.lastLog == now
    ensures r.(lastLog := st.lastLog) == st
  {
    if now - st.lastLog < interval then st else st.(lastLog := now)
  }

  /** After a line at `now`, no line is due before `now + interval`. */
  lemma LogRateLimited(st: State, now: real, later: real, interval: real)
    requires now - st.lastLog >= interval && now <= later < now + interval
    ensures LogStatus(LogStatus(st, now, interval), later, interval) == LogStatus(st, now, interval)
  {
  }

  // ---------------------------------------------------------------------
  // The tick
  // ---------------------------------------------------------------------

  /**
   * The part of a tick before the override check: lock expiry, history
   * update with `now`, and the emergency latch.
   */
  function Prelude(cfg: Settings, st: State, temps: Temps, now: real): (r: Outcome)
    requires Covers(cfg.zones, st.hist)
    ensures r.state.hist == UpdateHistory(cfg.zones, st.hist, temps, now, cfg.historyWindow)
    ensures r.state.hist.Keys == st.hist.Keys && Covers(cfg.zones, r.state.hist)
    ensures r.state.lock == ExpireLock(st, now).lock
    ensures r.state.phase == st.phase && r.state.lastLog == st.lastLog && r.state.lastSeverity == st.lastSeverity
    ensures Latch(r.state.overCounter, r.state.emergency)
            == Debounce(Latch(st.overCounter, st.emergency), AnyAtLeast(temps, cfg.criticalTemp), cfg.emergencyDebounce)
    ensures !st.emergency && r.state.emergency ==>
              r.writes == [Write(Performance, true)] && r.state.profile == Performance && r.state.lastSwitch == now
    ensures st.emergency || !r.state.emergency ==>
              r.writes == [] && r.state.profile == st.profile && r.state.lastSwitch == st.lastSwitch
  {
    var s1 := ExpireLock(st, now);
    var s2 := s1.(hist := UpdateHistory(cfg.zones, s1.hist, temps, now, cfg.historyWindow));
    HandleEmergency(cfg, s2, temps, now)
  }

  /** The cadence a tick plans from the snapshot and the updated histories. */
  function TickCadence(cfg: Settings, hist: Histories, temps: Temps): Cadence
    requires Covers(cfg.zones, hist)
  {
    CadenceFor(cfg, GlobalSeverity(cfg.zones, temps), MaxWeightedTrend(cfg, hist, temps), GlobalHotness(cfg.zones, temps))
  }

  /** Neither an emergency nor a lock is in force. */
  predicate Automatic(st: State)
  {
    !st.emergency && st.lock == Unlocked
  }

  /**
   * `tick`: the prelude; then, only under automatic control, the global
   * severity, the planned cadence and the state machine, with the elapsed
   * time measured from the switch before the tick; then the status log.
   */
  function Tick(cfg: Settings, st: State, temps: Temps, fans: Fans, now: real): (r: Outcome)
    requires Covers(cfg.zones, st.hist)
    ensures r.state.hist.Keys == st.hist.Keys && Covers(cfg.zones, r.state.hist)
  {
    var elapsed := now - st.lastSwitch;
    var pre := Prelude(cfg, st, temps, now);
    if !Automatic(pre.state) then
      Outcome(LogStatus(pre.state, now, cfg.logInterval), pre.writes)
    else
      var s := pre.state.(lastSeverity := GlobalSeverity(cfg.zones, temps));
      var t := StateTransition(cfg, s, elapsed, TickCadence(cfg, s.hist, temps), fans, now);
      Outcome(LogStatus(t.state, now, cfg.logInterval), pre.writes + t.writes)
  }

  /** The latch of a tick is the emergency latch run on the tick's snapshot. */
  lemma TickLatch(cfg: Settings, st: State, temps: Temps, fans: Fans, now: real)
    requires Covers(cfg.zones, st.hist)
    ensures Latch(Tick(cfg, st, temps, fans, now).state.overCounter, Tick(cfg, st, temps, fans, now).state.emergency)
            == Debounce(Latch(st.overCounter, st.emergency), AnyAtLeast(temps, cfg.criticalTemp), cfg.emergencyDebounce)
  {
  }

  /** The histories after a tick are the histories before it with the snapshot recorded at `now`. */
  lemma TickHistory(cfg: Settings, st: State, temps: Temps, fans: Fans, now: real)
    requires Covers(cfg.zones, st.hist)
    ensures Tick(cfg, st, temps, fans, now).state.hist == UpdateHistory(cfg.zones, st.hist, temps, now, cfg.historyWindow)
  {
  }

  /**
   * With a clock that does not run backwards, a tick keeps every history
   * chronological and within the window.
   */
  lemma TickHistoryInvariant(cfg: Settings, st: State, temps: Temps, fans: Fans, now: real)
    requires Covers(cfg.zones, st.hist) && AllChronological(st.hist) && NoneNewer(st.hist, now)
    requires Bounded(st.hist, cfg.historyWindow)
    ensures AllChronological(Tick(cfg, st, temps, fans, now).state.hist)
    ensures NoneNewer(Tick(cfg, st, temps, fans, now).state.hist, now)
    ensures Bounded(Tick(cfg, st, temps, fans, now).state.hist, cfg.historyWindow)
  {
    TickHistory(cfg, st, temps, fans, now);
    UpdateHistoryChronological(cfg.zones, st.hist, temps, now, cfg.historyWindow);
  }

  /**
   * Whatever branch a tick takes, it ends with the status log, so the time
   * of the last status line moves to `now` exactly when a line is due.
   */
  lemma TickLog(cfg: Settings, st: State, temps: Temps, fans: Fans, now: real)
    requires Covers(cfg.zones, st.hist)
    ensures Tick(cfg, st, temps, fans, now).state.lastLog == LogStatus(st, now, cfg.logInterval).lastLog
  {
  }

  /** A tick writes the profile at most once. */
  lemma TickAtMostOneWrite(cfg: Settings, st: State, temps: Temps, fans: Fans, now: real)
    requires Covers(cfg.zones, st.hist)
    ensures |Tick(cfg, st, temps, fans, now).writes| <= 1
  {
  }

  /**
   * Under an emergency or a lock the tick skips the state machine: the
   * phase and the recorded severity stay, and the only write possible is
   * the forced performance write of entering the emergency.
   */
  lemma TickShortCircuit(cfg: Settings, st: State, temps: Temps, fans: Fans, now: real)
    requires Covers(cfg.zones, st.hist)
    requires !Automatic(Prelude(cfg, st, temps, now).state)
    ensures Tick(cfg, st, temps, fans, now).state.phase == st.phase
    ensures Tick(cfg, st, temps, fans, now).state.lastSeverity == st.lastSeverity
    ensures Tick(cfg, st, temps, fans, now).writes == [] || Tick(cfg, st, temps, fans, now).writes == [Write(Performance, true)]
    ensures Tick(cfg, st, temps, fans, now).writes == Prelude(cfg, st, temps, now).writes
    ensures Tick(cfg, st, temps, fans, now).state.profile == Prelude(cfg, st, temps, now).state.profile
    ensures Tick(cfg, st, temps, fans, now).state.lastSwitch == Prelude(cfg, st, temps, now).state.lastSwitch
  {
  }

  /** Under automatic control the tick records the global severity and runs the state machine. */
  lemma TickAutomatic(cfg: Settings, st: State, temps: Temps, fans: Fans, now: real)
    requires Covers(cfg.zones, st.hist)
    requires Automatic(Prelude(cfg, st, temps, now).state)
    ensures Tick(cfg, st, temps, fans, now).state.lastSeverity == GlobalSeverity(cfg.zones, temps)
    ensures Tick(cfg, st, temps, fans, now).writes
            == StateTransition(cfg, Prelude(cfg, st, temps, now).state.(lastSeverity := GlobalSeverity(cfg.zones, temps)),
                               now - st.lastSwitch,
                               TickCadence(cfg, Prelude(cfg, st, temps, now).state.hist, temps), fans, now).writes
    ensures var t := StateTransition(cfg, Prelude(cfg, st, temps, now).state.(lastSeverity := GlobalSeverity(cfg.zones, temps)),
                                     now - st.lastSwitch,
                                     TickCadence(cfg, Prelude(cfg, st, temps, now).state.hist, temps), fans, now).state;
            var r := Tick(cfg, st, temps, fans, now).state;
            r.phase == t.phase && r.profile == t.profile && r.lastSwitch == t.lastSwitch
  {
  }

  /** Once normal, always normal: the boost phase is never re-entered. */
  lemma TickNeverReboosts(cfg: Settings, st: State, temps: Temps, fans: Fans, now: real)
    requires Covers(cfg.zones, st.hist) && st.phase == Normal
    ensures Tick(cfg, st, temps, fans, now).state.phase == Normal
  {
  }

  /** Emergency implies the performance profile, and a tick keeps it so. */
  lemma TickEmergencyPerformance(cfg: Settings, st: State, temps: Temps, fans: Fans, now: real)
    requires Covers(cfg.zones, st.hist)
    requires st.emergency ==> st.profile == Performance
    ensures Tick(cfg, st, temps, fans, now).state.emergency ==> Tick(cfg, st, temps, fans, now).state.profile == Performance
  {
  }

  /** A tick never takes a lock: the lock after it is the lock before it, less an expired one. */
  lemma TickLock(cfg: Settings, st: State, temps: Temps, fans: Fans, now: real)
    requires Covers(cfg.zones, st.hist)
    ensures Expired(st.lock, now) ==> Tick(cfg, st, temps, fans, now).state.lock == Unlocked
    ensures !Expired(st.lock, now) ==> Tick(cfg, st, temps, fans, now).state.lock == st.lock
  {
  }

  /**
   * A lock taken during an emergency force-writes its profile, so the
   * emergency can go on in the balanced profile.
   */
  lemma LockDuringEmergency(st: State, now: real)
    requires st.emergency
    ensures HandleLock(st, Some(LockRequest(Some("balanced"), None)), now).state.emergency
    ensures HandleLock(st, Some(LockRequest(Some("balanced"), None)), now).state.profile == Balanced
    ensures HandleLock(st, Some(LockRequest(Some("balanced"), None)), now).writes == [Write(Balanced, true)]
  {
    assert Parse("balanced") == Some(Balanced);
  }

  /**
   * When an emergency clears while a lock is held, the tick writes nothing:
   * the locked profile is not asserted again.
   */
  lemma EmergencyClearsUnderLock(cfg: Settings, st: State, temps: Temps, fans: Fans, now: real)
    requires Covers(cfg.zones, st.hist) && cfg.emergencyDebounce >= 1
    requires st.emergency && st.lock.Locked? && !Expired(st.lock, now)
    requires !AnyAtLeast(temps, cfg.criticalTemp)
    ensures !Tick(cfg, st, temps, fans, now).state.emergency
    ensures Tick(cfg, st, temps, fans, now).writes == []
    ensures Tick(cfg, st, temps, fans, now).state.profile == st.profile
  {
  }
}

=== FILE: legacy.dfy ===
/**
 * The older single-file controller: a fixed zone table and a fixed cadence
 * table, an emergency clamp without debounce, and the same boost/normal
 * state machine as the pulse controller. The emergency flag is never
 * cleared, so only the first excursion forces performance; the state
 * machine resumes on the first tick below the critical temperature.
 */
module Legacy {
  import opened Config
  import opened Snapshot
  import opened Analyzer
  import opened Profiles
  import Controller

  /** Seconds to stay in performance after start-up. */
  const BoostSeconds: real := 12.0

  /** Any reading at or above this many degrees is an emergency. */
  const CriticalTemp: real := 95.0

  /** Hold times per global severity; severity 0 rests for 9999 seconds. */
  const Cadences: map<int, Cadence> :=
    map[0 := Cadence(0, 9999), 1 := Cadence(1, 14), 2 := Cadence(4, 8)]

  /** The hold times of a severity level. */
  function Hold(sev: int): (r: Cadence)
    requires 0 <= sev <= 2
    ensures r.on >= 0 && r.off >= 8
  {
    Cadences[sev]
  }

  /** A higher severity never rests longer and never pulses shorter. */
  lemma HoldMonotone(sev: int, sev': int)
    requires 0 <= sev <= sev' <= 2
    ensures Hold(sev').off <= Hold(sev).off
    ensures Hold(sev).on <= Hold(sev').on
  {
  }

  /** The zone table: name, trigger, release, minimum fan speed. */
  const Zones: seq<Zone> := [
    Zone("cpu", 75.0, 68.0, 300),
    Zone("gpu", 70.0, 62.0, 300),
    Zone("ambient", 51.0, 48.0, 300),
    Zone("memory", 65.0, 58.0, 300)
  ]

  /** The zone names of the table are distinct. */
  lemma ZonesDistinct()
    ensures DistinctNames(Zones)
  {
    assert Zones[0].name == "cpu" && Zones[1].name == "gpu";
    assert Zones[2].name == "ambient" && Zones[3].name == "memory";
    assert "cpu" != "gpu" && "cpu" != "ambient" && "cpu" != "memory";
    assert "gpu" != "ambient" && "gpu" != "memory" && "ambient" != "memory";
  }

  datatype LegacyState = LegacyState(phase: Controller.Phase, profile: Profile, lastSwitch: real, emergency: bool)

  /** A state together with the profiles written on the way to it, in order. */
  datatype LegacyOutcome = LegacyOutcome(state: LegacyState, writes: seq<Profile>)

  /** The state on start-up: boosting, believed to be in performance. */
  function Init(now: real): (st: LegacyState)
    ensures st.phase == Controller.InitialBoost && st.profile == Performance
    ensures st.lastSwitch == now && !st.emergency
  {
    LegacyState(Controller.InitialBoost, Performance, now, false)
  }

  /** `_switch_to`: writes and records `p` only when it differs from the believed profile. */
  function SwitchTo(st: LegacyState, p: Profile, now: real): (r: LegacyOutcome)
    ensures r.state.profile == p
    ensures r.writes == [] <==> st.profile == p
    ensures r.writes == [] ==> r.state == st
    ensures r.writes != [] ==> r.writes == [p] && r.state.lastSwitch == now
    ensures r.state.(profile := st.profile, lastSwitch := st.lastSwitch) == st
  {
    if st.profile != p then LegacyOutcome(st.(profile := p, lastSwitch := now), [p])
    else LegacyOutcome(st, [])
  }

  /** `_force_profile`: always writes and records `p`. */
  function ForceProfile(st: LegacyState, p: Profile, now: real): (r: LegacyOutcome)
    ensures r.writes == [p]
    ensures r.state.profile == p && r.state.lastSwitch == now
    ensures r.state.(profile := st.profile, lastSwitch := st.lastSwitch) == st
  {
    LegacyOutcome(st.(profile := p, lastSwitch := now), [p])
  }

  /** Switching to the profile just switched to writes nothing. */
  lemma SwitchToIdempotent(st: LegacyState, p: Profile, now: real, later: real)
    ensures SwitchTo(SwitchTo(st, p, now).state, p, later) == LegacyOutcome(SwitchTo(st, p, now).state, [])
  {
  }

  /** `fans.get(zone.name, zone.min_rpm) < zone.min_rpm` for the i-th zone. */
  predicate FanBelowMin(fans: Fans, i: int)
    requires 0 <= i < |Zones|
  {
    (if Zones[i].name in fans then fans[Zones[i].name] else Zones[i].minRpm) < Zones[i].minRpm
  }

  /** The loop of `_fan_too_low` over the first k zones. */
  function AnyBelowMin(fans: Fans, k: nat): (r: bool)
    requires k <= |Zones|
    ensures r <==> exists i :: 0 <= i < k && FanBelowMin(fans, i)
  {
    if k == 0 then false else AnyBelowMin(fans, k - 1) || FanBelowMin(fans, k - 1)
  }

  /**
   * `_fan_too_low`: a missing zone reads as its own minimum and is never
   * flagged, so this is the analyzer's fan check on the zone table.
   */
  function FanTooLow(fans: Fans): (r: bool)
    ensures r <==> FansTooLow(Zones, fans)
  {
    assert forall i :: 0 <= i < |Zones| ==> (FanBelowMin(fans, i) <==> FanLowAt(Zones, fans, i));
    AnyBelowMin(fans, |Zones|)
  }

  /** The running maximum of the zone levels over the first k zones, absent readings as 0. */
  function MaxLevel(temps: Temps, k: nat): (r: int)
    requires 0 < k <= |Zones|
    ensures forall i :: 0 <= i < k ==> Level(Zones[i], TempOr0(temps, Zones[i].name)) <= r
    ensures exists i :: 0 <= i < k && Level(Zones[i], TempOr0(temps, Zones[i].name)) == r
  {
    var here := Level(Zones[k - 1], TempOr0(temps, Zones[k - 1].name));
    if k == 1 then here
    else
      var prev := MaxLevel(temps, k - 1);
      if prev >= here then prev else here
  }

  /** The global severity: the largest zone level of the table. */
  function GlobalLevel(temps: Temps): (r: int)
    ensures 0 <= r <= 2
    ensures forall i :: 0 <= i < |Zones| ==> Level(Zones[i], TempOr0(temps, Zones[i].name)) <= r
    ensures exists i :: 0 <= i < |Zones| && Level(Zones[i], TempOr0(temps, Zones[i].name)) == r
  {
    MaxLevel(temps, |Zones|)
  }

  /** The legacy global severity is the analyzer's global severity on the zone table. */
  lemma GlobalLevelAgrees(temps: Temps)
    ensures GlobalLevel(temps) == GlobalSeverity(Zones, temps)
  {
    ZonesDistinct();
    forall i | 0 <= i < |Zones|
      ensures SeverityAt(Zones, temps, i) == Level(Zones[i], TempOr0(temps, Zones[i].name))
    {
      ZoneSeverityDistinct(Zones, i, TempOr0(temps, Zones[i].name));
    }
    var g := GlobalLevel(temps);
    var i :| 0 <= i < |Zones| && Level(Zones[i], TempOr0(temps, Zones[i].name)) == g;
    assert SeverityAt(Zones, temps, i) == g;
  }

  /** The state machine, the same as the pulse controller's with the fixed hold times. */
  function Transition(st: LegacyState, elapsed: real, pulse: Cadence, fans: Fans, now: real): (r: LegacyOutcome)
    ensures r.state.phase == Controller.Normal <==> st.phase == Controller.Normal || elapsed >= BoostSeconds
    ensures st.phase == Controller.InitialBoost && elapsed >= BoostSeconds ==> r.state.profile == Balanced
    ensures st.phase == Controller.InitialBoost && elapsed < BoostSeconds ==> r == LegacyOutcome(st, [])
    ensures st.phase == Controller.Normal && st.profile == Performance ==>
              (r.state.profile == Balanced <==> elapsed >= pulse.on as real)
    ensures st.phase == Controller.Normal && st.profile == Balanced ==>
              (r.state.profile == Performance <==> elapsed >= pulse.off as real || FanTooLow(fans))
    ensures r.writes == [] <==> r.state.profile == st.profile
    ensures r.writes != [] ==> r.writes == [r.state.profile] && r.state.lastSwitch == now
    ensures r.writes == [] ==> r.state.lastSwitch == st.lastSwitch
    ensures r.state.emergency == st.emergency
  {
    match st.phase
    case InitialBoost =>
      if elapsed >= BoostSeconds then
        var o := SwitchTo(st, Balanced, now);
        LegacyOutcome(o.state.(phase := Controller.Normal), o.writes)
      else LegacyOutcome(st, [])
    case Normal =>
      if st.profile == Performance then
        if elapsed >= pulse.on as real then SwitchTo(st, Balanced, now) else LegacyOutcome(st, [])
      else if elapsed >= pulse.off as real || FanTooLow(fans) then
        SwitchTo(st, Performance, now)
      else LegacyOutcome(st, [])
  }

  /**
   * `tick`: a snapshot whose hottest reading is critical returns at once,
   * force-writing performance only if the emergency flag was not yet set;
   * any other snapshot runs the state machine with the table's hold times
   * for the global severity.
   */
  function Tick(st: LegacyState, temps: Temps, fans: Fans, now: real): (r: LegacyOutcome)
    ensures st.emergency ==> r.state.emergency
    ensures |r.writes| <= 1
  {
    if AnyAtLeast(temps, CriticalTemp) then
      if !st.emergency then
        var o := ForceProfile(st, Performance, now);
        LegacyOutcome(o.state.(emergency := true), o.writes)
      else LegacyOutcome(st, [])
    else
      Transition(st, now - st.lastSwitch, Hold(GlobalLevel(temps)), fans, now)
  }

  /**
   * A critical snapshot skips the state machine; only the first one forces
   * performance, and a later one leaves the profile where it is.
   */
  lemma CriticalTick(st: LegacyState, temps: Temps, fans: Fans, now: real)
    requires AnyAtLeast(temps, CriticalTemp)
    ensures Tick(st, temps, fans, now).state.emergency
    ensures Tick(st, temps, fans, now).state.phase == st.phase
    ensures !st.emergency ==>
              Tick(st, temps, fans, now).writes == [Performance] && Tick(st, temps, fans, now).state.profile == Performance
              && Tick(st, temps, fans, now).state.lastSwitch == now
    ensures st.emergency ==> Tick(st, temps, fans, now) == LegacyOutcome(st, [])
  {
  }

  /**
   * A snapshot below the critical temperature runs the state machine with
   * the table's hold times, whether or not the emergency flag is set.
   */
  lemma NormalTick(st: LegacyState, temps: Temps, fans: Fans, now: real)
    requires !AnyAtLeast(temps, CriticalTemp)
    ensures Tick(st, temps, fans, now)
            == Transition(st, now - st.lastSwitch, Hold(GlobalSeverity(Zones, temps)), fans, now)
  {
    GlobalLevelAgrees(temps);
  }

  /** A second overheat after the clamp has released into balanced leaves the profile balanced. */
  lemma SecondExcursionStaysBalanced(st: LegacyState, temps: Temps, fans: Fans, now: real)
    requires st.emergency && st.profile == Balanced && AnyAtLeast(temps, CriticalTemp)
    ensures Tick(st, temps, fans, now).state.profile == Balanced
    ensures Tick(st, temps, fans, now).writes == []
  {
  }
}

=== FILE: profiles.dfy ===
/**
 * The two firmware platform profiles the controller switches between, and
 * the write intents it hands to the profile writer.
 */
module Profiles {
  import opened Wrappers

  datatype Profile = Performance | Balanced

  /** The profile's name as written to the firmware. */
  function Name(p: Profile): string
  {
    match p
    case Performance => "performance"
    case Balanced => "balanced"
  }

  /** Only the two profile names are accepted; anything else is rejected. */
  function Parse(s: string): (r: Option<Profile>)
    ensures r.Some? ==> Name(r.value) == s
    ensures r.None? <==> s != "performance" && s != "balanced"
  {
    if s == "performance" then Some(Performance)
    else if s == "balanced" then Some(Balanced)
    else None
  }

  /** Every profile's name parses back to the profile. */
  lemma ParseName(p: Profile)
    ensures Parse(Name(p)) == Some(p)
  {
  }

  /** One write of `profile` to the firmware; `forced` marks the forced writes. */
  datatype Write = Write(profile: Profile, forced: bool)
}

=== FILE: regression.dfy ===
/**
 * Ordinary least squares over a window of (timestamp, temperature) samples,
 * with the abscissa x = t - c taken relative to an origin `c` (the analyzer
 * uses the first sample's timestamp). Each sum runs over the first `k`
 * samples and is folded from the k-th sample back.
 */
module Regression {
  import opened Numeric

  /** (timestamp in seconds, temperature in degrees Celsius). */
  type Sample = (real, real)

  /** x_i, the i-th timestamp relative to the origin. */
  function X(h: seq<Sample>, c: real, i: nat): real
    requires i < |h|
  {
    h[i].0 - c
  }

  /** Sum of x_i over the first k samples. */
  function SumX(h: seq<Sample>, c: real, k: nat): real
    requires k <= |h|
  {
    if k == 0 then 0.0 else SumX(h, c, k - 1) + X(h, c, k - 1)
  }

  /** Sum of y_i over the first k samples. */
  function SumY(h: seq<Sample>, k: nat): real
    requires k <= |h|
  {
    if k == 0 then 0.0 else SumY(h, k - 1) + h[k - 1].1
  }

  /** Sum of x_i * y_i over the first k samples. */
  function SumXY(h: seq<Sample>, c: real, k: nat): real
    requires k <= |h|
  {
    if k == 0 then 0.0 else SumXY(h, c, k - 1) + Mul(X(h, c, k - 1), h[k - 1].1)
  }

  /** Sum of x_i ** 2 over the first k samples. */
  function SumXX(h: seq<Sample>, c: real, k: nat): real
    requires k <= |h|
  {
    if k == 0 then 0.0 else SumXX(h, c, k - 1) + Mul(X(h, c, k - 1), X(h, c, k - 1))
  }

  /** `n * sum_xy - sum_x * sum_y` over the whole window. */
  function Numerator(h: seq<Sample>, c: real): real
  {
    Mul(|h| as real, SumXY(h, c, |h|)) - Mul(SumX(h, c, |h|), SumY(h, |h|))
  }

  /** `n * sum_x2 - sum_x ** 2`; the slope is Numerator / Denominator. */
  function Denominator(h: seq<Sample>, c: real): real
  {
    Mul(|h| as real, SumXX(h, c, |h|)) - Mul(SumX(h, c, |h|), SumX(h, c, |h|))
  }

  /**
   * The least-squares slope with timestamps relative to the first sample;
   * 0.0 for fewer than two samples and where the denominator is zero, the
   * two cases in which the analyzer returns early.
   */
  function Slope(h: seq<Sample>): real
  {
    if |h| < 2 then 0.0
    else
      var den := Denominator(h, h[0].0);
      if den == 0.0 then 0.0 else Numerator(h, h[0].0) / den
  }

  /** All samples carry the same timestamp. */
  predicate SameTime(h: seq<Sample>)
  {
    forall i :: 0 <= i < |h| ==> h[i].0 == h[0].0
  }

  /** Every sample reads the same temperature `v`. */
  predicate Steady(h: seq<Sample>, v: real)
  {
    forall i :: 0 <= i < |h| ==> h[i].1 == v
  }

  // ---------------------------------------------------------------------
  // Real arithmetic on variables
  // ---------------------------------------------------------------------

  /** v * a + b * v == v * (a + b), as one accumulation step. */
  lemma ScaleStep(v: real, a: real, b: real, s: real, prev: real, next: real)
    requires prev == Mul(v, a) && next == prev + Mul(b, v) && s == a + b
    ensures next == Mul(v, s)
  {
  }

  lemma ZeroQuotient(d: real)
    requires d != 0.0
    ensures 0.0 / d == 0.0
  {
    var q := 0.0 / d;
    assert q * d == 0.0;
  }

  lemma MulPositive(x: real, y: real, p: real)
    requires 0.0 < x && 0.0 < y && p == x * y
    ensures 0.0 < p
  {
  }

  lemma SquarePositive(x: real, sq: real)
    requires x != 0.0 && sq == Mul(x, x)
    ensures 0.0 < sq
  {
    if x < 0.0 {
      assert sq == (-x) * (-x);
      MulPositive(-x, -x, sq);
    } else {
      MulPositive(x, x, sq);
    }
  }

  /** Division is determined by its product: q * d == n forces q == n / d. */
  lemma QuotientUnique(n: real, d: real, q: real)
    requires d != 0.0 && q * d == n
    ensures q == n / d
  {
    var r := n / d;
    assert r * d == n;
    assert (q - r) * d == 0.0;
  }

  /** (x * dy) / (x * x) == dy / x for x != 0. */
  lemma CancelSquare(x: real, dy: real, num: real, den: real)
    requires x != 0.0 && num == Mul(x, dy) && den == Mul(x, x)
    ensures den != 0.0 && num / den == dy / x
  {
    SquarePositive(x, den);
    var q := dy / x;
    assert q * x == dy;
    assert q * den == (q * x) * x;
    QuotientUnique(num, den, q);
  }

  // ---------------------------------------------------------------------
  // A steady temperature has no slope
  // ---------------------------------------------------------------------

  /** Over a steady prefix, sum_y = v * k and sum_xy = v * sum_x. */
  lemma {:induction false} SteadySums(h: seq<Sample>, v: real, c: real, k: nat)
    requires Steady(h, v) && k <= |h|
    ensures SumXY(h, c, k) == Mul(v, SumX(h, c, k))
    ensures SumY(h, k) == Mul(v, k as real)
  {
    if k > 0 {
      SteadySums(h, v, c, k - 1);
      assert h[k - 1].1 == v;
      ScaleStep(v, SumX(h, c, k - 1), X(h, c, k - 1), SumX(h, c, k), SumXY(h, c, k - 1), SumXY(h, c, k));
      ScaleStep(v, (k - 1) as real, 1.0, k as real, SumY(h, k - 1), SumY(h, k));
    }
  }

  lemma SteadyAlgebra(n: real, v: real, sx: real, sy: real, sxy: real, num: real)
    requires sy == Mul(v, n) && sxy == Mul(v, sx) && num == Mul(n, sxy) - Mul(sx, sy)
    ensures num == 0.0
  {
  }

  /** A steady temperature gives a zero numerator, whatever the timestamps. */
  lemma SteadyNumerator(h: seq<Sample>, v: real, c: real)
    requires Steady(h, v)
    ensures Numerator(h, c) == 0.0
  {
    SteadySums(h, v, c, |h|);
    SteadyAlgebra(|h| as real, v, SumX(h, c, |h|), SumY(h, |h|), SumXY(h, c, |h|), Numerator(h, c));
  }

  /** A steady temperature has slope 0. */
  lemma SteadySlope(h: seq<Sample>, v: real)
    requires Steady(h, v)
    ensures Slope(h) == 0.0
  {
    if |h| >= 2 {
      SteadyNumerator(h, v, h[0].0);
      if Denominator(h, h[0].0) != 0.0 {
        ZeroQuotient(Denominator(h, h[0].0));
      }
    }
  }

  // ---------------------------------------------------------------------
  // A single timestamp has no spread
  // ---------------------------------------------------------------------

  /** With every timestamp at the origin, sum_x and sum_x2 vanish. */
  lemma {:induction false} AtOriginSums(h: seq<Sample>, c: real, k: nat)
    requires k <= |h|
    requires forall i :: 0 <= i < |h| ==> h[i].0 == c
    ensures SumX(h, c, k) == 0.0 && SumXX(h, c, k) == 0.0
  {
    if k > 0 {
      AtOriginSums(h, c, k - 1);
      assert X(h, c, k - 1) == 0.0;
    }
  }

  /** All samples at one timestamp: the denominator is zero. */
  lemma SameTimeDenominator(h: seq<Sample>)
    requires |h| > 0 && SameTime(h)
    ensures Denominator(h, h[0].0) == 0.0
  {
    AtOriginSums(h, h[0].0, |h|);
  }

  /** Samples that all share one timestamp have slope 0. */
  lemma SameTimeSlope(h: seq<Sample>)
    requires SameTime(h)
    ensures Slope(h) == 0.0
  {
    if |h| >= 2 {
      SameTimeDenominator(h);
    }
  }

  // ---------------------------------------------------------------------
  // Two samples
  // ---------------------------------------------------------------------

  /** The temperature change across a window of two samples. */
  function Rise(h: seq<Sample>): real
    requires |h| == 2
  {
    h[1].1 - h[0].1
  }

  lemma PairAlgebra(x0: real, x1: real, y0: real, y1: real, dy: real, sx: real, sy: real, sxy: real, sxx: real, num: real, den: real)
    requires x0 == 0.0 && dy == y1 - y0 && sx == 0.0 + x0 + x1 && sy == 0.0 + y0 + y1
    requires sxy == 0.0 + Mul(x0, y0) + Mul(x1, y1) && sxx == 0.0 + Mul(x0, x0) + Mul(x1, x1)
    requires num == Mul(2.0, sxy) - Mul(sx, sy) && den == Mul(2.0, sxx) - Mul(sx, sx)
    ensures num == Mul(x1, dy) && den == Mul(x1, x1)
  {
  }

  /** Two samples: the numerator and the denominator of the two-point slope (y1 - y0) / x_1. */
  lemma PairSums(h: seq<Sample>)
    requires |h| == 2
    ensures Numerator(h, h[0].0) == Mul(X(h, h[0].0, 1), Rise(h))
    ensures Denominator(h, h[0].0) == Mul(X(h, h[0].0, 1), X(h, h[0].0, 1))
  {
    var c := h[0].0;
    assert X(h, c, 0) == 0.0;
    assert SumX(h, c, 1) == 0.0 + X(h, c, 0) && SumY(h, 1) == 0.0 + h[0].1;
    assert SumXY(h, c, 1) == 0.0 + Mul(X(h, c, 0), h[0].1) && SumXX(h, c, 1) == 0.0 + Mul(X(h, c, 0), X(h, c, 0));
    assert SumX(h, c, 2) == 0.0 + X(h, c, 0) + X(h, c, 1);
    assert SumY(h, 2) == 0.0 + h[0].1 + h[1].1;
    assert SumXY(h, c, 2) == 0.0 + Mul(X(h, c, 0), h[0].1) + Mul(X(h, c, 1), h[1].1);
    assert SumXX(h, c, 2) == 0.0 + Mul(X(h, c, 0), X(h, c, 0)) + Mul(X(h, c, 1), X(h, c, 1));
    PairAlgebra(X(h, c, 0), X(h, c, 1), h[0].1, h[1].1, Rise(h), SumX(h, c, 2), SumY(h, 2), SumXY(h, c, 2), SumXX(h, c, 2), Numerator(h, c), Denominator(h, c));
  }

  /** Two samples at distinct times: the denominator is positive. */
  lemma PairDenominator(h: seq<Sample>)
    requires |h| == 2 && h[0].0 != h[1].0
    ensures Denominator(h, h[0].0) > 0.0
  {
    PairSums(h);
    SquarePositive(X(h, h[0].0, 1), Denominator(h, h[0].0));
  }

  /** Two samples at distinct times: the slope is (y1 - y0) / (t1 - t0). */
  lemma PairSlope(h: seq<Sample>)
    requires |h| == 2 && h[0].0 != h[1].0
    ensures Slope(h) == (h[1].1 - h[0].1) / (h[1].0 - h[0].0)
  {
    PairSums(h);
    CancelSquare(X(h, h[0].0, 1), Rise(h), Numerator(h, h[0].0), Denominator(h, h[0].0));
  }
}
